=== FILE: README.md ===
# DiscourseAlive core, modelled in Dafny

DiscourseAlive logs in to Discourse forums as one or more configured accounts.
It opens topics from the listing and likes the ones whose view count exceeds
a threshold. It then reports what it did. This project models the
deterministic logic of `app.py` as pure Dafny functions over strings,
sequences and records, and proves what that logic guarantees. The browser
is treated as an oracle that supplies per-topic facts as data.

- `results.dfy`, module `Results`: `Option` and `Result`.
- `text.dfy`, module `Text`: the Python string built-ins the core relies on.
  These are `strip()`, `split()`, `startswith`, `replace`, `lower()`, the
  substring test `in`, `str(n)` and base-10 `int(str)`.
- `config.dfy`, module `Config`: `parse_accounts` and `_parse_single_account`.
  The environment is a `map<string, string>`.
- `topics.dfy`, module `Topics`: `get_views`, `try_like` and the selection
  and counting loop of `browse_topics`.
- `runner.dfy`, module `Runner`: result recording in `run`, and the figures
  of `generate_report`.

Two facts about `app.py` shape the model:

- `browse_topics` examines at most the first twenty topics of one listing,
  once.
- When an exception escapes the per-account block of `run`, the elapsed time
  is recorded. Only a rejected login records time 0.

## Model

| member | source | states |
|---|---|---|
| Text.Strip | app.py:103 | `strip()` removes the characters `str.isspace()` accepts. It returns the slice of the input that has only whitespace around it. The result is empty exactly when the input is all whitespace. Otherwise it starts and ends with a non-space. |
| Text.Words | app.py:127 | `split()` yields only non-empty, whitespace-free fields. It yields none exactly when the line is blank. |
| Text.WordsOfJoin | app.py:127 | Splitting undoes joining with single spaces, so the fields come back in order and unchanged. |
| Text.WordsOfWord | app.py:127 | A single whitespace-free word splits into exactly itself. |
| Text.WordsSplitAtSpace | app.py:127 | `split()` cuts at every whitespace character: the fields of `u + c + v`, for whitespace `c`, are the fields of `u` followed by the fields of `v`. |
| Text.ReplaceAll | app.py:140 | `replace` leaves a string without an occurrence of the pattern unchanged. |
| Text.ReplaceFirstOccurrence | app.py:140 | `replace` scans left to right: text before the first occurrence is kept, the occurrence becomes the replacement, and the scan resumes after it. |
| Text.ReplaceWhole | app.py:140 | Replacing a pattern within the pattern itself yields exactly the replacement. |
| Text.ParseInt | app.py:141-145 | `int()` raises on empty or all-whitespace text. |
| Text.StripPadded | app.py:103 | `strip()` removes exactly the whitespace padding around a text that neither starts nor ends with whitespace. |
| Text.ParseIntPadded | app.py:141-145 | `int()` accepts a rendered number with any whitespace it trims before and after it: `int(pre + str(n) + post) == n` when `pre` and `post` hold only such whitespace. |
| Text.ParseIntGroups | app.py:141-145 | `int()` accepts digit groups with single underscores between digits and any leading zeros, and reads them as the digits' value. A leading `+` gives the same value, and a leading `-` gives its negation. |
| Text.ParseIntOnlyWellFormed | app.py:141-145 | `int()` accepts nothing but whitespace it trims, an optional sign with digit groups, then whitespace it trims. So `"1 000"`, `"1__0"`, `"_1"`, `"1_"` and `"+-1"` all raise `ValueError`. |
| Text.ParseIntWellFormed | app.py:141-145 | Conversely, every text of that shape is read as a number. |
| Text.ParseIntRoundTrip | app.py:141 | `int(str(n)) == n` for every integer `n`, negative ones included, within the digit limit noted under "Left out". |
| Text.ParseIntRejectsForeign | app.py:145 | `int()` fails on any text containing a character that is not whitespace `int()` trims, a digit, a sign or an underscore. The information separators U+001C to U+001F are such characters even though `strip()` removes them. |
| Config.NormaliseUrl | app.py:136-137 | The result always starts with `http://` or `https://`. A URL that already has a scheme is unchanged. Any other URL gets `https://` prepended. |
| Config.NormaliseUrlIdempotent | app.py:136-137 | Normalising twice equals normalising once. |
| Config.Domain | app.py:151 | The domain is a prefix of the URL after its scheme. It contains no `/`, `?` or `#`, and it extends up to the first such delimiter. |
| Config.CompanionKey | app.py:140-144 | A key name without `DISCOURSE_USER` is its own companion. A name starting with `DISCOURSE_USER` has that part replaced by the prefix, and the rest of the name is replaced in turn. |
| Config.CompanionOfPrimary | app.py:139-145 | `DISCOURSE_USER` has companion keys `VIEW_COUNT` and `SCROLL_DURATION`. |
| Config.CompanionOfNumbered | app.py:139-145 | `DISCOURSE_USER_<i>` has companion keys `VIEW_COUNT_<i>` and `SCROLL_DURATION_<i>`. |
| Config.ParseSingleAccount | app.py:125-154 | A line that does not split into exactly 3 fields adds no account. A 3-field line fails exactly when `int()` rejects a companion value; the threshold's value is read first, and the error names the first rejected key and its text. Otherwise it adds one account carrying the normalised field 1, field 2 as user name and field 3 as password, with threshold and duration `int()` of the companion values. |
| Config.ParseSingleAccountRoundTrip | app.py:125-154 | The line `"<url> <user> <password>"` with companion values `str(view_count)` and `str(scroll_duration)` parses back to exactly that account, with the URL normalised. |
| Config.DefaultsWhenAbsent | app.py:141-145 | Without companion keys, a 3-field line gets view threshold 1000 and scroll duration 5. |
| Config.LineValueLookup | app.py:103 | Looking a key up in the environment with every value stripped gives `os.getenv(key, "").strip()`. An unset key reads as empty. |
| Config.NumberedLines | app.py:107-115 | Numbered keys are read in order. Entry `k` of the scan from index `i` is the key `DISCOURSE_USER_<i+k>` with its stripped value, and that value is non-blank. The scan stops at the first index whose value is missing or blank. |
| Config.NumberedLinesStopAtGap | app.py:108-113 | Two environments that agree on the numbered values up to the first gap yield the same lines. |
| Config.DiscoveredLines | app.py:103-115 | `DISCOURSE_USER` comes first exactly when its stripped value is non-blank. Then come `DISCOURSE_USER_1`, `DISCOURSE_USER_2`, … consecutively, up to the first index whose value is missing or blank. Every line is its key's non-blank stripped value. |
| Config.ConfigLines | app.py:103-115 | Every configuration line is `os.getenv(key, "").strip()` of the key it is paired with, and is non-blank. |
| Config.DiscoveredLinesIgnoreAfterGap | app.py:103-115 | Changing a numbered value after the first gap does not change the discovered lines. |
| Config.ConfigLinesIgnoreAfterGap | app.py:103-115 | Setting a numbered environment variable after the first gap does not change the discovered lines. |
| Config.ParseLines | app.py:104-114 | Parsing the lines succeeds exactly when every line's parse does. A failure carries the error of the first line whose parse fails. A success has at most one account per line. |
| Config.ParseLinesFields | app.py:104-114 | A successful parse yields one account per 3-field line, in line order. Account `k` is exactly what `_parse_single_account` builds from the `k`-th 3-field line and that line's own key. So it carries that line's URL, user name and password, and the `int()` values of that key's companion variables. |
| Config.ParseLinesAccounts | app.py:104-114 | The accounts of a successful parse and the 3-field lines match one to one, each account built from its line. |
| Config.ParseAccounts | app.py:100-119 | The parse is `DISCOURSE_USER` first, then the numbered lines. It fails exactly when some line's companion value is rejected by `int()`, or when no line has 3 fields. A rejected value is reported as it stands, with the first failing line's error. When every line parses but none has 3 fields, the result is exactly the fatal no-account error (`exit(1)`, app.py:117-119), and that error arises only then. A success is never empty, and each of its accounts is the one built from its own line and that line's companion keys. |
| Config.RejectedCompanionIsFatal | app.py:139-145 | A 3-field line whose threshold or scroll-duration value `int()` rejects makes the whole configuration fail with a `BadInteger` error. No default is substituted, whatever the other lines hold. |
| Topics.FirstNumber | app.py:393-395 | There is no number exactly when the text has no digit. |
| Topics.FirstNumberIsFirstRun | app.py:393-395 | The number read is the value of the first maximal run of digits, wherever that run lies. |
| Topics.FirstDigitRunExists | app.py:393-395 | Every text containing a digit has a first maximal digit run. |
| Topics.RemoveCommas | app.py:393 | The result has no comma. It holds every other character of the input as often as the input does, and it equals an input that had no comma. |
| Topics.RemoveCommasAppend | app.py:393 | Commas are removed piecewise: removing them from `a + b` gives the result for `a` followed by the result for `b`, so the other characters keep their order. |
| Topics.RemoveCommasChar | app.py:393 | A single comma vanishes and any other single character stays. |
| Topics.RemoveCommasDigits | app.py:393 | Removing commas neither adds nor removes a digit. |
| Topics.CellViewsNone | app.py:389-395 | A view-count element yields no number exactly when neither its title nor its stripped text holds a digit. |
| Topics.GetViews | app.py:374-400 | The view count is a natural number. It is 0 when no selector's element holds a digit. |
| Topics.GetViewsFirstYield | app.py:386-398 | The first selector whose element holds a number supplies the view count. |
| Topics.BlockedByUndoWord | app.py:422-424 | A button whose title contains 移除, remove, unlike or undo, in any ASCII letter case, is skipped. |
| Topics.TryButtons | app.py:418-428 | Within one selector, only displayed buttons whose title has no undo word are clicked. The scan stops at the first click that succeeds, and a like is reported exactly then. |
| Topics.TryLike | app.py:402-431 | The same guarantee holds across all like selectors in order. |
| Topics.TryButtonsLikedIff | app.py:418-430 | A selector yields a like if and only if some button is reached before any read fails, is clickable, and its click succeeds. |
| Topics.TryLikeLikedIff | app.py:415-431 | `try_like` returns true if and only if some selector has such a button. |
| Topics.Title | app.py:473-475 | The title holds at most 30 characters. It is empty exactly when the stripped link text is empty. |
| Topics.VisitTopic | app.py:469-497 | A topic counts as visited if and only if it is not pinned, has a title and a link, and its page loaded. A like is tried if and only if views strictly exceed the threshold. A pinned topic is always skipped. |
| Topics.HandleTopic | app.py:469-497 | One pass of the loop body counts the topic as browsed exactly when it is visited, and registers a like only on a visited topic whose views exceed the threshold. |
| Topics.VisitLog | app.py:467-468 | `min(len(topics), 20)` topics are examined, in list order. |
| Topics.VisitLogIgnoresTail | app.py:467-468 | Topics after the first twenty never affect the outcome. |
| Topics.PinnedNeverVisited | app.py:470-471 | No pinned topic is counted as visited. |
| Topics.LikesWithinVisits | app.py:491-497 | `like_count <= browse_count <= examined topics`. |
| Topics.BrowseTopics | app.py:459-497 | The loop's counts equal the visits and likes of the examined topics. They satisfy `like_count <= browse_count <= min(n, 20)`, and an empty listing gives (0, 0). |
| Runner.Status.Label | app.py:660 | The three status texts are distinct, so the report's test `status == '完成'` holds exactly for completed accounts. |
| Runner.ResultOf | app.py:581-615 | Each result carries the account's domain and user name. Status 完成 holds exactly after a login, and 登录失败 exactly after a rejected login. After a login the counts are the visits and likes of the session's listing; failed accounts have zero counts. A rejected login has time 0. Likes never exceed visits, which never exceed 20. |
| Runner.RunResults | app.py:566-615 | There is one result per account, in account order. |
| Runner.Run | app.py:561-615 | The loop appends exactly the per-account results in order. A rejected login gives a fixed 登录失败 record. A failure before browsing gives a 执行异常 record with zero counts. |
| Runner.GenerateReport | app.py:652-672 | The success count is the number of results with status 完成, and never exceeds the number of results. The totals are the sums of the per-result counts. The time is shown as minutes and seconds with `total == minutes*60 + seconds` and `seconds < 60`. |
| Runner.SuccessWithinResults | app.py:660 | The success count is at most the number of results. It equals that number exactly when every status is 完成, and it is 0 exactly when none is. |
| Runner.TotalsAdd | app.py:658-660 | Totals and the success count are additive over concatenated result lists. |
| Runner.TotalsBounded | app.py:658-659 | If each result has likes within visits within 20, the totals keep the same order. |
| Runner.SuccessCountsLogins | app.py:660 | For a whole run, the success count equals the number of accounts that logged in. |
| Runner.ReportOfRun | app.py:649-672 | A run's report has one result per account and as many successes as logins. Its total likes are at most its total visits, which are at most 20 per account. |

## Left out

- Browser plumbing is not modelled. This covers driver and Chrome setup (app.py:156-198), `safe_click`, `wait_for_element` and the login form. Their outcomes are inputs: `Session` says whether driver setup raised, login was rejected, or the listing was reached. `ButtonProbe.clickSucceeds` is the result of `safe_click` with its retries.
- `get_topics` and `is_pinned` are CSS selector lookups against the live page. The model takes the topic list and each topic's pinned flag as given.
- The time-bounded scroll-loading loop (app.py:441-457) and the reading simulation (app.py:501-508) are not modelled. They depend on the wall clock, random sleeps and float division.
- An exception raised before `driver.get` returns (app.py:470-490) means the topic is not counted, and `Candidate.opens` is false for it. One raised later, in the reading simulation, comes after the counts and changes nothing.
- An exception while the listing loads (app.py:547-557) makes `browse_topics` return (0, 0). The model gives such a session an empty listing.
- Tab recovery, browser teardown and the 5-second pause are not modelled (app.py:513-529, 535-557, 617-646). Nor are notification loading and sending, log messages, or the summary text. All of these are side effects only.
- Config.Domain: it stands in for `urlparse(url).netloc` as the text after the `http(s)://` prefix up to the first `/`, `?` or `#`. It does not model `urlparse`'s other rules, such as rejecting malformed IPv6 brackets.
- Text.ParseInt: it accepts ASCII digits only. Python's `int()` also accepts other Unicode decimal digits, so on such text the model reports an error where Python returns a number. It also has no digit limit: from Python 3.11 on, `int()` and `str()` raise `ValueError` on numbers of more than 4300 digits, so `Text.ParseIntRoundTrip` holds in Python only for integers of at most 4300 digits.
- Topics.FirstNumber: `\d` matches only ASCII digits here. Python's `re` also matches other Unicode decimal digits. It also has no digit limit: from Python 3.11 on, `int(numbers[0])` (app.py:395) raises on a run of more than 4300 digits, which app.py:396 catches before trying the next selector; the model reads the number.
- Text.ToLower: it lowers only ASCII letters. Python's `lower()` is Unicode-aware. The undo words are ASCII or unaffected by case, but a non-ASCII letter can lower to an ASCII one: U+212A KELVIN SIGN lowers to `k`, so Python skips a button titled "UNLI\u212aE" while the model clicks it.
- Runner.Run: the session outcomes are given as one entry per account, which is why it requires as many sessions as accounts.
- Runner.GenerateReport: the total run time is a natural number. A wall clock running backwards, which could make `int(time.time() - start_time)` (app.py:649) negative, is not modelled.
- Runner.ResultOf: the per-account time `int(time.time() - account_start)` (app.py:594, 614) is a natural number (`Session.elapsed`, `RunResult.time`), for the same reason.
- An interrupted run and the top-level exception handler (app.py:692-700) are not modelled.

=== FILE: config.dfy ===
/**
 Account configuration: `DiscourseBrowser.parse_accounts` and
 `_parse_single_account`. The process environment is a finite map from
 variable names to values; `os.getenv(k, d)` reads `env[k]` when `k` is
 present and `d` otherwise.
 */
module Config {
  import opened Results
  import opened Text

  type Env = map<string, string>

  /** One configured forum identity, as the dictionary `_parse_single_account` appends. */
  datatype Account = Account(
    forumUrl: string,
    username: string,
    password: string,
    domain: string,
    viewCount: int,
    scrollDuration: int)

  /** The two ways configuration parsing ends the program. */
  datatype ConfigError =
    | BadInteger(key: string, text: string)  // `int()` raised on a companion value
    | NoAccounts                              // no account parsed: `exit(1)`

  const UserKey := "DISCOURSE_USER"
  const ViewCountKey := "VIEW_COUNT"
  const ScrollDurationKey := "SCROLL_DURATION"
  const DefaultViewCount := "1000"
  const DefaultScrollDuration := "5"

  function Getenv(env: Env, key: string, default: string): string {
    if key in env then env[key] else default
  }

  /** `os.getenv(key, "").strip()`: what a configuration line reads as. */
  function LineValue(env: Env, key: string): string {
    Strip(Getenv(env, key, ""))
  }

  /** `f"DISCOURSE_USER_{i}"` */
  function NumberedKey(i: nat): string {
    UserKey + "_" + NatToDecimal(i)
  }

  // ---------------------------------------------------------------------------
  // Forum URL

  predicate HasScheme(url: string) {
    StartsWith(url, "http://") || StartsWith(url, "https://")
  }

  /** A forum URL without an `http://` or `https://` prefix gets `https://`. */
  function NormaliseUrl(url: string): (r: string)
    ensures HasScheme(r)
    ensures HasScheme(url) ==> r == url
    ensures !HasScheme(url) ==> r == "https://" + url
  {
    if HasScheme(url) then url
    else
      assert ("https://" + url)[..8] == "https://";
      "https://" + url
  }

  /** Normalising an already normalised URL changes nothing. */
  lemma NormaliseUrlIdempotent(url: string)
    ensures NormaliseUrl(NormaliseUrl(url)) == NormaliseUrl(url)
  {
  }

  predicate IsDelimiter(c: char) {
    c == '/' || c == '?' || c == '#'
  }

  /** The longest prefix of `s` holding no `/`, `?` or `#`. */
  function UpToDelimiter(s: string): (r: string)
    ensures |r| <= |s| && r == s[..|r|]
    ensures forall k :: 0 <= k < |r| ==> !IsDelimiter(r[k])
    ensures |r| < |s| ==> IsDelimiter(s[|r|])
  {
    if s == [] || IsDelimiter(s[0]) then [] else [s[0]] + UpToDelimiter(s[1..])
  }

  /** The URL without its `https://` or `http://` prefix. */
  function AfterScheme(url: string): string {
    if StartsWith(url, "https://") then url[8..]
    else if StartsWith(url, "http://") then url[7..]
    else url
  }

  /** Stand-in for `urlparse(url).netloc` on a URL with an http(s) scheme: the
      text after `://` up to the first `/`, `?` or `#`. */
  function Domain(url: string): (r: string)
    ensures StartsWith(AfterScheme(url), r)
    ensures forall k :: 0 <= k < |r| ==> !IsDelimiter(r[k])
    ensures |r| < |AfterScheme(url)| ==> IsDelimiter(AfterScheme(url)[|r|])
  {
    UpToDelimiter(AfterScheme(url))
  }

  // ---------------------------------------------------------------------------
  // Companion keys

  /** `env_name.replace("DISCOURSE_USER", prefix)`: a name without
      `DISCOURSE_USER` is its own companion, and a name starting with it
      has it replaced by the prefix. */
  function CompanionKey(envName: string, prefix: string): (r: string)
    ensures !Contains(envName, UserKey) ==> r == envName
    ensures StartsWith(envName, UserKey) ==>
              r == prefix + CompanionKey(envName[|UserKey|..], prefix)
  {
    ReplaceAll(envName, UserKey, prefix)
  }

  lemma {:induction false} NotContainedWithoutFirstChar(s: string, w: string)
    requires w != []
    requires forall k :: 0 <= k < |s| ==> s[k] != w[0]
    ensures !Contains(s, w)
    decreases |s|
  {
    if s != [] {
      assert !StartsWith(s, w) by {
        if |w| <= |s| {
          assert s[..|w|][0] == s[0];
        }
      }
      NotContainedWithoutFirstChar(s[1..], w);
    }
  }

  /** The primary account's companions are the bare prefixes. */
  lemma CompanionOfPrimary(prefix: string)
    ensures CompanionKey(UserKey, prefix) == prefix
  {
    ReplaceWhole(UserKey, prefix);
  }

  /** `DISCOURSE_USER_<i>` has companions `VIEW_COUNT_<i>` and
      `SCROLL_DURATION_<i>`. */
  lemma CompanionOfNumbered(i: nat, prefix: string)
    ensures CompanionKey(NumberedKey(i), prefix) == prefix + "_" + NatToDecimal(i)
  {
    var suffix := "_" + NatToDecimal(i);
    var key := NumberedKey(i);
    assert key == UserKey + suffix;
    assert key[..|UserKey|] == UserKey;
    assert key[|UserKey|..] == suffix;
    NotContainedWithoutFirstChar(suffix, UserKey);
  }

  // ---------------------------------------------------------------------------
  // One configuration line

  /** `a` carries the URL (normalised), user name and password of the
      three-field line `line`, and the URL's domain. */
  predicate FieldsFrom(a: Account, line: string) {
    && |Words(line)| == 3
    && a.forumUrl == NormaliseUrl(Words(line)[0])
    && a.username == Words(line)[1]
    && a.password == Words(line)[2]
    && a.domain == Domain(a.forumUrl)
  }

  /** The value of the threshold's companion key, or its default. */
  function ViewText(env: Env, envName: string): string {
    Getenv(env, CompanionKey(envName, ViewCountKey), DefaultViewCount)
  }

  /** The value of the scroll duration's companion key, or its default. */
  function ScrollText(env: Env, envName: string): string {
    Getenv(env, CompanionKey(envName, ScrollDurationKey), DefaultScrollDuration)
  }

  /** `_parse_single_account(line, envName)`: a line that does not split into
      exactly three fields adds nothing; otherwise the threshold's companion
      value is read with `int()` first, then the scroll duration's, and the
      first one `int()` rejects aborts the parse. */
  function ParseSingleAccount(env: Env, envName: string, line: string): (r: Result<Option<Account>, ConfigError>)
    ensures |Words(line)| != 3 ==> r == Ok(None)
    ensures r.Ok? && r.value.Some? ==> FieldsFrom(r.value.value, line)
    ensures r.Ok? && r.value.Some? ==>
              && Some(r.value.value.viewCount) == ParseInt(ViewText(env, envName))
              && Some(r.value.value.scrollDuration) == ParseInt(ScrollText(env, envName))
    ensures |Words(line)| == 3 && r.Ok? ==> r.value.Some?
    ensures r.Err? <==>
              && |Words(line)| == 3
              && (ParseInt(ViewText(env, envName)) == None || ParseInt(ScrollText(env, envName)) == None)
    ensures r.Err? && ParseInt(ViewText(env, envName)) == None ==>
              r.error == BadInteger(CompanionKey(envName, ViewCountKey), ViewText(env, envName))
    ensures r.Err? && ParseInt(ViewText(env, envName)).Some? ==>
              r.error == BadInteger(CompanionKey(envName, ScrollDurationKey), ScrollText(env, envName))
    ensures r.Err? ==> r.error.BadInteger? && ParseInt(r.error.text) == None
  {
    var parts := Words(line);
    if |parts| != 3 then Ok(None)
    else
      var forumUrl := NormaliseUrl(parts[0]);
      var viewKey := CompanionKey(envName, ViewCountKey);
      var viewText := Getenv(env, viewKey, DefaultViewCount);
      match ParseInt(viewText)
      case None => Err(BadInteger(viewKey, viewText))
      case Some(viewCount) =>
        var scrollKey := CompanionKey(envName, ScrollDurationKey);
        var scrollText := Getenv(env, scrollKey, DefaultScrollDuration);
        match ParseInt(scrollText)
        case None => Err(BadInteger(scrollKey, scrollText))
        case Some(scrollDuration) =>
          Ok(Some(Account(forumUrl, parts[1], parts[2], Domain(forumUrl), viewCount, scrollDuration)))
  }

  /** Writing an account back out parses to it: the line
      `"<url> <user> <password>"` with companion values `str(view_count)` and
      `str(scroll_duration)` yields exactly that account. */
  lemma ParseSingleAccountRoundTrip(env: Env, envName: string, url: string, user: string, password: string,
                                    viewCount: int, scrollDuration: int)
    requires IsWord(url) && IsWord(user) && IsWord(password)
    requires CompanionKey(envName, ViewCountKey) in env
    requires env[CompanionKey(envName, ViewCountKey)] == IntToDecimal(viewCount)
    requires CompanionKey(envName, ScrollDurationKey) in env
    requires env[CompanionKey(envName, ScrollDurationKey)] == IntToDecimal(scrollDuration)
    ensures var u := NormaliseUrl(url);
            ParseSingleAccount(env, envName, Join([url, user, password]))
              == Ok(Some(Account(u, user, password, Domain(u), viewCount, scrollDuration)))
  {
    WordsOfJoin([url, user, password]);
    ParseFields(env, envName, Join([url, user, password]), url, user, password, viewCount, scrollDuration);
  }

  /** A line with fields `url user password`, and companion values that are
      decimal renderings, yields the account with those fields and values. */
  lemma ParseFields(env: Env, envName: string, line: string, url: string, user: string, password: string,
                    viewCount: int, scrollDuration: int)
    requires Words(line) == [url, user, password]
    requires ViewText(env, envName) == IntToDecimal(viewCount)
    requires ScrollText(env, envName) == IntToDecimal(scrollDuration)
    ensures var u := NormaliseUrl(url);
            ParseSingleAccount(env, envName, line)
              == Ok(Some(Account(u, user, password, Domain(u), viewCount, scrollDuration)))
  {
    ParseIntRoundTrip(viewCount);
    ParseIntRoundTrip(scrollDuration);
  }

  lemma DefaultsParse()
    ensures ParseInt(DefaultViewCount) == Some(1000)
    ensures ParseInt(DefaultScrollDuration) == Some(5)
  {
    ParseIntRoundTrip(1000);
    ParseIntRoundTrip(5);
    RenderThousand();
    assert NatToDecimal(5) == "5";
  }

  lemma RenderThousand()
    ensures NatToDecimal(1000) == "1000"
  {
    assert NatToDecimal(1) == "1";
    assert NatToDecimal(10) == NatToDecimal(1) + "0";
    assert NatToDecimal(100) == NatToDecimal(10) + "0";
    assert NatToDecimal(1000) == NatToDecimal(100) + "0";
  }

  /** Without companion keys, a three-field line yields an account with view
      threshold 1000 and scroll duration 5. */
  lemma DefaultsWhenAbsent(env: Env, envName: string, line: string)
    requires |Words(line)| == 3
    requires CompanionKey(envName, ViewCountKey) !in env
    requires CompanionKey(envName, ScrollDurationKey) !in env
    ensures ParseSingleAccount(env, envName, line).Ok?
    ensures ParseSingleAccount(env, envName, line).value.Some?
    ensures ParseSingleAccount(env, envName, line).value.value.viewCount == 1000
    ensures ParseSingleAccount(env, envName, line).value.value.scrollDuration == 5
  {
    DefaultsParse();
  }

  // ---------------------------------------------------------------------------
  // Discovery of configuration lines

  /** The numbered keys below `i`. */
  function Seen(i: nat): set<string> {
    set j | 1 <= j < i :: NumberedKey(j)
  }

  lemma NumberedKeyInjective(a: nat, b: nat)
    ensures NumberedKey(a) == NumberedKey(b) ==> a == b
  {
    if NumberedKey(a) == NumberedKey(b) {
      var p := UserKey + "_";
      assert NumberedKey(a)[|p|..] == NatToDecimal(a);
      assert NumberedKey(b)[|p|..] == NatToDecimal(b);
      NatToDecimalInjective(a, b);
    }
  }

  lemma SeenGrows(i: nat)
    requires i >= 1
    ensures NumberedKey(i) !in Seen(i)
    ensures Seen(i + 1) == Seen(i) + {NumberedKey(i)}
  {
    if NumberedKey(i) in Seen(i) {
      var j :| 1 <= j < i && NumberedKey(j) == NumberedKey(i);
      NumberedKeyInjective(i, j);
    }
  }

  /** The environment with every value stripped, as each `os.getenv(...).strip()`
      reads it. */
  function Stripped(env: Env): (lines: Env)
    ensures lines.Keys == env.Keys
  {
    map key | key in env :: Strip(env[key])
  }

  /** A stripped value, or "" for a key that is not set. */
  function Lookup(lines: Env, key: string): string {
    if key in lines then lines[key] else ""
  }

  /** Reading a line through the stripped environment is reading it directly. */
  lemma LineValueLookup(env: Env, key: string)
    ensures Lookup(Stripped(env), key) == LineValue(env, key)
  {
    assert AllSpace("");
  }

  /** A present, non-blank numbered line leaves fewer unseen keys. */
  lemma UnseenShrinks(lines: Env, i: nat)
    requires i >= 1
    requires Lookup(lines, NumberedKey(i)) != []
    ensures lines.Keys - Seen(i + 1) < lines.Keys - Seen(i)
  {
    SeenGrows(i);
    assert NumberedKey(i) in lines.Keys - Seen(i);
  }

  /** The numbered key `i` paired with its stripped value. */
  function NumberedLine(lines: Env, i: nat): (string, string) {
    (NumberedKey(i), Lookup(lines, NumberedKey(i)))
  }

  /** The lines `DISCOURSE_USER_i`, `DISCOURSE_USER_{i+1}`, … up to the first
      index whose value is missing or blank, each paired with its key. */
  function NumberedLines(lines: Env, i: nat): (r: seq<(string, string)>)
    requires i >= 1
    ensures forall k :: 0 <= k < |r| ==> r[k] == NumberedLine(lines, i + k) && r[k].1 != []
    ensures Lookup(lines, NumberedKey(i + |r|)) == []
    decreases lines.Keys - Seen(i)
  {
    var key := NumberedKey(i);
    var v := Lookup(lines, key);
    if v == [] then []
    else
      UnseenShrinks(lines, i);
      [(key, v)] + NumberedLines(lines, i + 1)
  }

  /** Keys past the first gap are never read: two environments that agree on
      the numbered lines up to and including the gap give the same lines. */
  lemma {:induction false} NumberedLinesStopAtGap(lines: Env, lines': Env, i: nat)
    requires i >= 1
    requires forall j :: i <= j <= i + |NumberedLines(lines, i)| ==>
               Lookup(lines', NumberedKey(j)) == Lookup(lines, NumberedKey(j))
    ensures NumberedLines(lines', i) == NumberedLines(lines, i)
    decreases lines.Keys - Seen(i)
  {
    var v := Lookup(lines, NumberedKey(i));
    if v != [] {
      UnseenShrinks(lines, i);
      NumberedLinesStopAtGap(lines, lines', i + 1);
    }
  }

  /** The configuration lines in the order `parse_accounts` reads them from
      the stripped values: `DISCOURSE_USER` when set and not blank, then the
      numbered keys. */
  function DiscoveredLines(lines: Env): (r: seq<(string, string)>)
    ensures forall k :: 0 <= k < |r| ==> r[k].1 == Lookup(lines, r[k].0) && r[k].1 != []
    ensures (r != [] && r[0].0 == UserKey) <==> Lookup(lines, UserKey) != []
    ensures var p := if Lookup(lines, UserKey) != [] then 1 else 0;
            && p <= |r|
            && (forall k :: p <= k < |r| ==> r[k] == NumberedLine(lines, k - p + 1))
            && Lookup(lines, NumberedKey(|r| - p + 1)) == []
  {
    var primary := Lookup(lines, UserKey);
    var numbered := NumberedLines(lines, 1);
    NumberedLinesNotPrimary(lines);
    if primary != [] then [(UserKey, primary)] + numbered else numbered
  }

  /** No numbered line is read from `DISCOURSE_USER` itself. */
  lemma NumberedLinesNotPrimary(lines: Env)
    ensures forall k :: 0 <= k < |NumberedLines(lines, 1)| ==> NumberedLines(lines, 1)[k].0 != UserKey
  {
    var numbered := NumberedLines(lines, 1);
    forall k | 0 <= k < |numbered| ensures numbered[k].0 != UserKey {
      assert |NumberedKey(k + 1)| > |UserKey|;
    }
  }

  /** The configuration lines of the environment, each paired with the key it
      was read from; every line is that key's stripped, non-blank value. */
  function ConfigLines(env: Env): (r: seq<(string, string)>)
    ensures forall k :: 0 <= k < |r| ==> r[k].1 == LineValue(env, r[k].0) && r[k].1 != []
  {
    var r := DiscoveredLines(Stripped(env));
    forall k | 0 <= k < |r| ensures r[k].1 == LineValue(env, r[k].0) {
      LineValueLookup(env, r[k].0);
    }
    r
  }

  /** Changing a numbered value past the first gap leaves the discovered lines
      unchanged. */
  lemma DiscoveredLinesIgnoreAfterGap(lines: Env, j: nat, v: string)
    requires j > |NumberedLines(lines, 1)| + 1
    ensures DiscoveredLines(lines[NumberedKey(j) := v]) == DiscoveredLines(lines)
  {
    var lines' := lines[NumberedKey(j) := v];
    forall m | 1 <= m <= 1 + |NumberedLines(lines, 1)|
      ensures Lookup(lines', NumberedKey(m)) == Lookup(lines, NumberedKey(m))
    {
      NumberedKeyInjective(m, j);
    }
    NumberedLinesStopAtGap(lines, lines', 1);
    assert |NumberedKey(j)| > |UserKey|;
    assert Lookup(lines', UserKey) == Lookup(lines, UserKey);
  }

  /** Setting one key changes only that key's stripped value. */
  lemma StrippedUpdate(env: Env, key: string, v: string)
    ensures Stripped(env[key := v]) == Stripped(env)[key := Strip(v)]
  {
  }

  /** Setting any numbered key past the first gap leaves the discovered lines
      unchanged. */
  lemma ConfigLinesIgnoreAfterGap(env: Env, j: nat, v: string)
    requires j > |NumberedLines(Stripped(env), 1)| + 1
    ensures ConfigLines(env[NumberedKey(j) := v]) == ConfigLines(env)
  {
    StrippedUpdate(env, NumberedKey(j), v);
    DiscoveredLinesIgnoreAfterGap(Stripped(env), j, Strip(v));
  }

  // ---------------------------------------------------------------------------
  // All accounts

  predicate IsThreeFields(line: (string, string)) {
    |Words(line.1)| == 3
  }

  /** The lines that split into exactly three fields, in order. */
  function ThreeFieldLines(lines: seq<(string, string)>): (r: seq<(string, string)>)
    ensures forall k :: 0 <= k < |r| ==> IsThreeFields(r[k])
  {
    if lines == [] then []
    else (if IsThreeFields(lines[0]) then [lines[0]] else []) + ThreeFieldLines(lines[1..])
  }

  /** `_parse_single_account` applied to line `k`. */
  function SingleAt(env: Env, lines: seq<(string, string)>, k: nat): Result<Option<Account>, ConfigError>
    requires k < |lines|
  {
    ParseSingleAccount(env, lines[k].0, lines[k].1)
  }

  /** The accounts of `lines`, parsed in order; the first companion value that
      `int()` rejects aborts the parse with that line's error. */
  function ParseLines(env: Env, lines: seq<(string, string)>): (r: Result<seq<Account>, ConfigError>)
    ensures r.Ok? ==> |r.value| <= |lines|
    ensures r.Ok? <==> forall k :: 0 <= k < |lines| ==> SingleAt(env, lines, k).Ok?
    ensures r.Err? ==> exists k :: FirstFailure(env, lines, k, r.error)
    ensures r.Err? ==> r.error.BadInteger?
  {
    if lines == [] then Ok([])
    else
      var r := ParseLines(env, lines[1..]);
      SingleAtTail(env, lines);
      match SingleAt(env, lines, 0)
      case Err(e) =>
        assert FirstFailure(env, lines, 0, e);
        Err(e)
      case Ok(first) =>
        match r
        case Err(e) =>
          FirstErrorInTail(env, lines, e);
          Err(e)
        case Ok(rest) =>
          AllParseCons(env, lines);
          Ok((if first.Some? then [first.value] else []) + rest)
  }

  /** Every line parses when the first one and every line of the tail do. */
  lemma AllParseCons(env: Env, lines: seq<(string, string)>)
    requires lines != [] && SingleAt(env, lines, 0).Ok?
    requires forall k :: 0 <= k < |lines[1..]| ==> SingleAt(env, lines[1..], k).Ok?
    ensures forall k :: 0 <= k < |lines| ==> SingleAt(env, lines, k).Ok?
  {
    SingleAtTail(env, lines);
  }

  /** Line `k + 1` of `lines` is line `k` of its tail. */
  lemma SingleAtTail(env: Env, lines: seq<(string, string)>)
    requires lines != []
    ensures forall k :: 1 <= k < |lines| ==> SingleAt(env, lines, k) == SingleAt(env, lines[1..], k - 1)
  {
  }

  /** Line `k` is the first line whose parse fails, and it fails with `e`. */
  predicate FirstFailure(env: Env, lines: seq<(string, string)>, k: nat, e: ConfigError) {
    && k < |lines|
    && SingleAt(env, lines, k) == Err(e)
    && forall j :: 0 <= j < k ==> SingleAt(env, lines, j).Ok?
  }

  /** The first failing line of the tail is the first failing line of the
      whole when the first line parses. */
  lemma FirstErrorInTail(env: Env, lines: seq<(string, string)>, e: ConfigError)
    requires lines != [] && SingleAt(env, lines, 0).Ok?
    requires exists k :: FirstFailure(env, lines[1..], k, e)
    ensures exists k :: FirstFailure(env, lines, k, e)
  {
    var k :| FirstFailure(env, lines[1..], k, e);
    FirstFailureShift(env, lines, k, e);
  }

  lemma FirstFailureShift(env: Env, lines: seq<(string, string)>, k: nat, e: ConfigError)
    requires lines != [] && SingleAt(env, lines, 0).Ok?
    requires FirstFailure(env, lines[1..], k, e)
    ensures FirstFailure(env, lines, k + 1, e)
  {
    SingleAtTail(env, lines);
    forall j | 0 <= j < k + 1
      ensures SingleAt(env, lines, j).Ok?
    {
      if j > 0 {
        assert SingleAt(env, lines[1..], j - 1).Ok?;
      }
    }
  }

  /** `a` is the account `_parse_single_account` builds from `line`: its own
      fields and its own companion values, read with the line's key. */
  predicate AccountOfLine(env: Env, a: Account, line: (string, string)) {
    ParseSingleAccount(env, line.0, line.1) == Ok(Some(a))
  }

  /** A successful parse yields one account per three-field line, in line
      order, each the account built from that line: its URL, user name and
      password, and the values of that line's companion keys. */
  lemma ParseLinesFields(env: Env, lines: seq<(string, string)>)
    ensures ParseLines(env, lines).Ok? ==>
              |ParseLines(env, lines).value| == |ThreeFieldLines(lines)|
    ensures ParseLines(env, lines).Ok? ==>
              forall k :: 0 <= k < |ParseLines(env, lines).value| ==>
                AccountOfLine(env, ParseLines(env, lines).value[k], ThreeFieldLines(lines)[k])
    ensures ParseLines(env, lines).Ok? ==>
              forall k :: 0 <= k < |ParseLines(env, lines).value| ==>
                FieldsFrom(ParseLines(env, lines).value[k], ThreeFieldLines(lines)[k].1)
  {
    ParseLinesAccounts(env, lines);
    if ParseLines(env, lines).Ok? {
      AccountsCarryFields(env, ParseLines(env, lines).value, ThreeFieldLines(lines));
    }
  }

  /** `accounts` are the accounts built from `lines`, one per line, in order. */
  predicate AccountsOfLines(env: Env, accounts: seq<Account>, lines: seq<(string, string)>) {
    && |accounts| == |lines|
    && forall k :: 0 <= k < |accounts| ==> AccountOfLine(env, accounts[k], lines[k])
  }

  /** The induction behind `ParseLinesFields`: the accounts of a successful
      parse match the three-field lines one to one. */
  lemma {:induction false} ParseLinesAccounts(env: Env, lines: seq<(string, string)>)
    ensures ParseLines(env, lines).Ok? ==>
              AccountsOfLines(env, ParseLines(env, lines).value, ThreeFieldLines(lines))
  {
    if lines != [] && ParseLines(env, lines).Ok? {
      ParseLinesCons(env, lines);
      ParseLinesAccounts(env, lines[1..]);
      assert ThreeFieldLines(lines)
          == (if IsThreeFields(lines[0]) then [lines[0]] else []) + ThreeFieldLines(lines[1..]);
      SingleAccountOfLine(env, lines[0]);
      AccountsStep(env, SingleAt(env, lines, 0).value, lines[0],
                   ParseLines(env, lines[1..]).value, ThreeFieldLines(lines[1..]));
    }
  }

  /** A line that parses yields an account exactly when it has three fields,
      and that account is built from the line. */
  lemma SingleAccountOfLine(env: Env, line: (string, string))
    requires ParseSingleAccount(env, line.0, line.1).Ok?
    ensures var first := ParseSingleAccount(env, line.0, line.1).value;
            && (first.Some? <==> IsThreeFields(line))
            && (first.Some? ==> AccountOfLine(env, first.value, line))
  {
  }

  /** One line's parse in front of the accounts of the following lines. */
  lemma AccountsStep(env: Env, first: Option<Account>, line: (string, string),
                     rest: seq<Account>, tail: seq<(string, string)>)
    requires first.Some? <==> IsThreeFields(line)
    requires first.Some? ==> AccountOfLine(env, first.value, line)
    requires AccountsOfLines(env, rest, tail)
    ensures AccountsOfLines(env, (if first.Some? then [first.value] else []) + rest,
                            (if IsThreeFields(line) then [line] else []) + tail)
  {
    var head := if first.Some? then [first.value] else [];
    var lineHead := if IsThreeFields(line) then [line] else [];
    PrependMatching((a: Account, l: (string, string)) => AccountOfLine(env, a, l), head, rest, lineHead, tail);
  }

  /** Accounts built from lines carry those lines' fields. */
  lemma AccountsCarryFields(env: Env, accounts: seq<Account>, lines: seq<(string, string)>)
    requires |accounts| == |lines|
    requires forall k :: 0 <= k < |accounts| ==> AccountOfLine(env, accounts[k], lines[k])
    ensures forall k :: 0 <= k < |accounts| ==> FieldsFrom(accounts[k], lines[k].1)
  {
    forall k | 0 <= k < |accounts|
      ensures FieldsFrom(accounts[k], lines[k].1)
    {
      assert AccountOfLine(env, accounts[k], lines[k]);
    }
  }

  /** A successful parse is the first line's account, if any, followed by
      the accounts of the other lines. */
  lemma ParseLinesCons(env: Env, lines: seq<(string, string)>)
    requires lines != [] && ParseLines(env, lines).Ok?
    ensures SingleAt(env, lines, 0).Ok? && ParseLines(env, lines[1..]).Ok?
    ensures var first := SingleAt(env, lines, 0).value;
            ParseLines(env, lines).value
              == (if first.Some? then [first.value] else []) + ParseLines(env, lines[1..]).value
  {
  }

  /** Prepending a matching pair to two index-wise matching sequences keeps
      them matching; `rel` stands for `AccountOfLine`. */
  lemma PrependMatching<A, L>(rel: (A, L) -> bool, head: seq<A>, rest: seq<A>, lineHead: seq<L>, tail: seq<L>)
    requires |rest| == |tail| && |head| == |lineHead| <= 1
    requires forall k :: 0 <= k < |rest| ==> rel(rest[k], tail[k])
    requires head != [] ==> rel(head[0], lineHead[0])
    ensures |head + rest| == |lineHead + tail|
    ensures forall k :: 0 <= k < |head + rest| ==> rel((head + rest)[k], (lineHead + tail)[k])
  {
    forall k | 0 <= k < |head + rest|
      ensures rel((head + rest)[k], (lineHead + tail)[k])
    {
      if k >= |head| {
        assert (head + rest)[k] == rest[k - |head|];
        assert (lineHead + tail)[k] == tail[k - |head|];
      }
    }
  }

  /** `parse_accounts`: every discovered line parsed in order; the first
      companion value `int()` rejects is fatal, and so is finding no account
      at all. */
  function ParseAccounts(env: Env): (r: Result<seq<Account>, ConfigError>)
    ensures r.Ok? ==> r.value != []
    ensures r.Ok? ==> |r.value| == |ThreeFieldLines(ConfigLines(env))|
    ensures r.Ok? ==> forall k :: 0 <= k < |r.value| ==>
              AccountOfLine(env, r.value[k], ThreeFieldLines(ConfigLines(env))[k])
    ensures r.Ok? ==> forall k :: 0 <= k < |r.value| ==>
              FieldsFrom(r.value[k], ThreeFieldLines(ConfigLines(env))[k].1)
    ensures r.Err? <==> ParseLines(env, ConfigLines(env)).Err? || ThreeFieldLines(ConfigLines(env)) == []
    ensures ParseLines(env, ConfigLines(env)).Err? ==> r == ParseLines(env, ConfigLines(env))
    ensures r == Err(NoAccounts) ==> ThreeFieldLines(ConfigLines(env)) == []
    ensures ParseLines(env, ConfigLines(env)).Ok? && ThreeFieldLines(ConfigLines(env)) == [] ==>
              r == Err(NoAccounts)
  {
    var lines := ConfigLines(env);
    ParseLinesFields(env, lines);
    match ParseLines(env, lines)
    case Err(e) => Err(e)
    case Ok(accounts) => if accounts == [] then Err(NoAccounts) else Ok(accounts)
  }

  /** A three-field line whose threshold or scroll-duration value `int()`
      rejects makes the whole configuration fail with a `BadInteger` error,
      whatever the other lines hold: no default is substituted. */
  lemma RejectedCompanionIsFatal(env: Env, k: nat)
    requires k < |ConfigLines(env)| && IsThreeFields(ConfigLines(env)[k])
    requires || ParseInt(ViewText(env, ConfigLines(env)[k].0)) == None
             || ParseInt(ScrollText(env, ConfigLines(env)[k].0)) == None
    ensures ParseAccounts(env).Err? && ParseAccounts(env).error.BadInteger?
  {
    var lines := ConfigLines(env);
    assert SingleAt(env, lines, k).Err?;
  }
}

=== FILE: results.dfy ===
/**
 Option and Result types used across the model for values that may be absent
 and for operations that can fail (Python's `None` returns and exceptions).
 */
module Results {

  datatype Option<+T> = None | Some(value: T)

  datatype Result<+T, +E> = Ok(value: T) | Err(error: E)
}

=== FILE: runner.dfy ===
/**
 The per-account driver loop `DiscourseBrowser.run` and the summary figures of
 `generate_report`. Driver creation, login and the clock are oracles: each
 account comes with the `Session` outcome the browser produced for it.
 */
module Runner {
  import opened Config
  import opened Topics

  /** The status an account's result records. */
  datatype Status = Completed | LoginFailed | Crashed {

    /** The status text `run` records and `generate_report` tests; the three
        texts are distinct, so the text identifies the status. */
    function Label(): (r: string)
      ensures r == "完成" <==> this == Completed
      ensures r == "登录失败" <==> this == LoginFailed
      ensures r == "执行异常" <==> this == Crashed
    {
      match this
      case Completed => "完成"
      case LoginFailed => "登录失败"
      case Crashed => "执行异常"
    }
  }

  /** One entry of `self.results`. */
  datatype RunResult = RunResult(
    domain: string,
    username: string,
    status: Status,
    browseCount: nat,
    likeCount: nat,
    time: nat)

  /** What the browser did for one account. `elapsed` is the whole seconds
      since the account's start as `int(time.time() - account_start)` in
      `run` computes them. */
  datatype Session =
    | DriverFailed(elapsed: nat)                       // an exception escaped before the topic loop
    | LoginRejected                                    // `login` returned False
    | LoggedIn(topics: seq<Candidate>, elapsed: nat)   // the listing `browse_topics` worked on

  /** The result `run` appends for one account. */
  function ResultOf(account: Account, session: Session): (r: RunResult)
    ensures r.domain == account.domain && r.username == account.username
    ensures r.status == Completed <==> session.LoggedIn?
    ensures r.status == LoginFailed <==> session.LoginRejected?
    ensures !session.LoggedIn? ==> r.browseCount == 0 && r.likeCount == 0
    ensures session.LoggedIn? ==>
              && r.browseCount == VisitCount(VisitLog(session.topics, account.viewCount))
              && r.likeCount == LikeCount(VisitLog(session.topics, account.viewCount))
    ensures session.LoginRejected? ==> r.time == 0
    ensures !session.LoginRejected? ==> r.time == session.elapsed
    ensures r.likeCount <= r.browseCount <= MaxTopics
  {
    match session
    case DriverFailed(elapsed) =>
      RunResult(account.domain, account.username, Crashed, 0, 0, elapsed)
    case LoginRejected =>
      RunResult(account.domain, account.username, LoginFailed, 0, 0, 0)
    case LoggedIn(topics, elapsed) =>
      var log := VisitLog(topics, account.viewCount);
      LikesWithinVisits(log);
      RunResult(account.domain, account.username, Completed, VisitCount(log), LikeCount(log), elapsed)
  }

  /** The results of a whole run, one per account in account order. */
  function RunResults(accounts: seq<Account>, sessions: seq<Session>): (rs: seq<RunResult>)
    requires |sessions| == |accounts|
    ensures |rs| == |accounts|
    ensures forall k :: 0 <= k < |rs| ==> rs[k] == ResultOf(accounts[k], sessions[k])
  {
    seq(|accounts|, k requires 0 <= k < |accounts| => ResultOf(accounts[k], sessions[k]))
  }

  /** `run`: every account is processed in order and exactly one result is
      appended for it, whatever its session did. */
  method Run(accounts: seq<Account>, sessions: seq<Session>) returns (results: seq<RunResult>)
    requires |sessions| == |accounts|
    ensures results == RunResults(accounts, sessions)
    ensures forall k :: 0 <= k < |results| ==>
              results[k].domain == accounts[k].domain && results[k].username == accounts[k].username
    ensures forall k :: 0 <= k < |results| && sessions[k].LoginRejected? ==>
              results[k] == RunResult(accounts[k].domain, accounts[k].username, LoginFailed, 0, 0, 0)
    ensures forall k :: 0 <= k < |results| && sessions[k].DriverFailed? ==>
              results[k] == RunResult(accounts[k].domain, accounts[k].username, Crashed, 0, 0, sessions[k].elapsed)
  {
    results := [];
    var i := 0;
    while i < |accounts|
      invariant i <= |accounts|
      invariant |results| == i
      invariant forall k :: 0 <= k < i ==> results[k] == ResultOf(accounts[k], sessions[k])
    {
      var account := accounts[i];
      match sessions[i] {
        case DriverFailed(elapsed) =>
          results := results + [RunResult(account.domain, account.username, Crashed, 0, 0, elapsed)];
        case LoginRejected =>
          results := results + [RunResult(account.domain, account.username, LoginFailed, 0, 0, 0)];
        case LoggedIn(topics, elapsed) =>
          var browseCount, likeCount := BrowseTopics(topics, account.viewCount);
          results := results + [RunResult(account.domain, account.username, Completed, browseCount, likeCount, elapsed)];
      }
      i := i + 1;
    }
  }

  // ---------------------------------------------------------------------------
  // Report

  function TotalBrowse(rs: seq<RunResult>): nat {
    if rs == [] then 0 else TotalBrowse(rs[..|rs| - 1]) + rs[|rs| - 1].browseCount
  }

  function TotalLike(rs: seq<RunResult>): nat {
    if rs == [] then 0 else TotalLike(rs[..|rs| - 1]) + rs[|rs| - 1].likeCount
  }

  /** `sum(1 for r in results if r['status'] == '完成')` */
  function SuccessCount(rs: seq<RunResult>): nat {
    if rs == [] then 0
    else SuccessCount(rs[..|rs| - 1]) + (if rs[|rs| - 1].status.Label() == "完成" then 1 else 0)
  }

  /** The figures `generate_report` prints and sends. */
  datatype Report = Report(
    successCount: nat,
    resultCount: nat,
    totalBrowse: nat,
    totalLike: nat,
    minutes: nat,
    seconds: nat)

  /** `generate_report(total_time)`: totals over all results and the run time
      split into minutes and seconds. */
  function GenerateReport(results: seq<RunResult>, totalTime: nat): (r: Report)
    ensures r.resultCount == |results|
    ensures r.successCount == SuccessCount(results) <= r.resultCount
    ensures r.minutes * 60 + r.seconds == totalTime && r.seconds < 60
    ensures r.totalBrowse == TotalBrowse(results) && r.totalLike == TotalLike(results)
  {
    SuccessWithinResults(results);
    Report(SuccessCount(results), |results|, TotalBrowse(results), TotalLike(results),
           totalTime / 60, totalTime % 60)
  }

  lemma {:induction false} SuccessWithinResults(rs: seq<RunResult>)
    ensures SuccessCount(rs) <= |rs|
    ensures SuccessCount(rs) == |rs| <==> forall k :: 0 <= k < |rs| ==> rs[k].status == Completed
    ensures SuccessCount(rs) == 0 <==> forall k :: 0 <= k < |rs| ==> rs[k].status != Completed
  {
    if rs != [] {
      var init := rs[..|rs| - 1];
      SuccessWithinResults(init);
      assert forall k :: 0 <= k < |init| ==> init[k] == rs[k];
    }
  }

  /** Totals are plain sums: the totals of two result lists add up. */
  lemma {:induction false} TotalsAdd(a: seq<RunResult>, b: seq<RunResult>)
    ensures TotalBrowse(a + b) == TotalBrowse(a) + TotalBrowse(b)
    ensures TotalLike(a + b) == TotalLike(a) + TotalLike(b)
    ensures SuccessCount(a + b) == SuccessCount(a) + SuccessCount(b)
  {
    if b == [] {
      assert a + b == a;
    } else {
      assert (a + b)[..|a + b| - 1] == a + b[..|b| - 1];
      assert (a + b)[|a + b| - 1] == b[|b| - 1];
      TotalsAdd(a, b[..|b| - 1]);
    }
  }

  /** When every result keeps likes within visits within the topic cap, so do
      the totals. */
  lemma {:induction false} TotalsBounded(rs: seq<RunResult>)
    requires forall k :: 0 <= k < |rs| ==> rs[k].likeCount <= rs[k].browseCount <= MaxTopics
    ensures TotalLike(rs) <= TotalBrowse(rs) <= MaxTopics * |rs|
  {
    if rs != [] {
      var init := rs[..|rs| - 1];
      assert forall k :: 0 <= k < |init| ==> init[k] == rs[k];
      TotalsBounded(init);
    }
  }

  function LoggedInCount(sessions: seq<Session>): nat {
    if sessions == [] then 0
    else LoggedInCount(sessions[..|sessions| - 1]) + (if sessions[|sessions| - 1].LoggedIn? then 1 else 0)
  }

  lemma {:induction false} SuccessCountsLogins(accounts: seq<Account>, sessions: seq<Session>)
    requires |sessions| == |accounts|
    ensures SuccessCount(RunResults(accounts, sessions)) == LoggedInCount(sessions)
  {
    var n := |accounts|;
    if n > 0 {
      var rs := RunResults(accounts, sessions);
      assert rs[..n - 1] == RunResults(accounts[..n - 1], sessions[..n - 1]);
      SuccessCountsLogins(accounts[..n - 1], sessions[..n - 1]);
    }
  }

  /** The report of a whole run: one result per account, successes are the
      accounts that logged in, and the like total stays within the visit
      total, which stays within twenty topics per account. */
  lemma ReportOfRun(accounts: seq<Account>, sessions: seq<Session>, totalTime: nat)
    requires |sessions| == |accounts|
    ensures var r := GenerateReport(RunResults(accounts, sessions), totalTime);
            && r.resultCount == |accounts|
            && r.successCount == LoggedInCount(sessions)
            && r.totalLike <= r.totalBrowse <= MaxTopics * |accounts|
  {
    SuccessCountsLogins(accounts, sessions);
    TotalsBounded(RunResults(accounts, sessions));
  }
}

=== FILE: text.dfy ===
/**
 The Python string built-ins the configuration and view-count code relies on:
 `str.strip()`, `str.split()`, `str.startswith`, `str.replace`, `str.lower`,
 the `in` substring test, decimal rendering of a number (f-strings) and the
 base-10 `int(str)` conversion.
 */
module Text {
  import opened Results

  /** The characters Python's `str.isspace()` accepts: the set that
      `strip()` and `split()` skip. `int()` skips all of them except the
      information separators below. */
  predicate IsSpace(c: char) {
    || c == ' '
    || ('\t' <= c <= '\r')
    || ('\U{1C}' <= c <= '\U{1F}')
    || c == '\U{85}' || c == '\U{A0}' || c == '\U{1680}'
    || ('\U{2000}' <= c <= '\U{200A}')
    || c == '\U{2028}' || c == '\U{2029}' || c == '\U{202F}'
    || c == '\U{205F}' || c == '\U{3000}'
  }

  /** The ASCII information separators U+001C to U+001F. `str.isspace()`
      accepts them, but `int()` trims only ASCII space, tab, line feed,
      vertical tab, form feed and carriage return plus non-ASCII whitespace. */
  predicate IsInfoSeparator(c: char) {
    '\U{1C}' <= c <= '\U{1F}'
  }

  /** The whitespace `int()` trims around a number. */
  predicate IsIntSpace(c: char) {
    IsSpace(c) && !IsInfoSeparator(c)
  }

  predicate AllSpace(s: string) {
    forall k :: 0 <= k < |s| ==> IsSpace(s[k])
  }

  predicate AllIntSpace(s: string) {
    forall k :: 0 <= k < |s| ==> IsIntSpace(s[k])
  }

  /** The number of whitespace characters `s` starts with. */
  function LeadingSpace(s: string): (n: nat)
    ensures n <= |s|
    ensures forall k :: 0 <= k < n ==> IsSpace(s[k])
    ensures n < |s| ==> !IsSpace(s[n])
  {
    if s == [] || !IsSpace(s[0]) then 0 else 1 + LeadingSpace(s[1..])
  }

  /** Where the run of whitespace that `s` ends with begins. */
  function TrailingSpaceStart(s: string): (n: nat)
    ensures n <= |s|
    ensures forall k :: n <= k < |s| ==> IsSpace(s[k])
    ensures n > 0 ==> !IsSpace(s[n - 1])
  {
    if s == [] || !IsSpace(s[|s| - 1]) then |s| else TrailingSpaceStart(s[..|s| - 1])
  }

  /** `r` is the slice of `s` starting at `i`, with only whitespace before and
      after it. */
  predicate SliceBetweenSpace(s: string, i: nat, r: string) {
    && i + |r| <= |s|
    && s[i..i + |r|] == r
    && (forall k :: 0 <= k < i ==> IsSpace(s[k]))
    && (forall k :: i + |r| <= k < |s| ==> IsSpace(s[k]))
  }

  /** `s.strip()`: the slice of `s` left once whitespace is removed from both
      ends. */
  function Strip(s: string): (r: string)
    ensures r == [] <==> AllSpace(s)
    ensures r != [] ==> !IsSpace(r[0]) && !IsSpace(r[|r| - 1])
    ensures SliceBetweenSpace(s, LeadingSpace(s), r)
  {
    var i := LeadingSpace(s);
    if i == |s| then []
    else
      var j := TrailingSpaceStart(s);
      assert i < j;
      s[i..j]
  }

  /** A text with no whitespace at either end is its own `strip()`. */
  lemma StripUntrimmed(s: string)
    requires s != [] && !IsSpace(s[0]) && !IsSpace(s[|s| - 1])
    ensures Strip(s) == s
  {
  }

  /** Whitespace followed by a non-space character: `strip()` skips exactly
      that whitespace at the front. */
  lemma {:induction false} LeadingSpaceOfPadded(pre: string, rest: string)
    requires AllSpace(pre) && rest != [] && !IsSpace(rest[0])
    ensures LeadingSpace(pre + rest) == |pre|
  {
    if pre == [] {
      assert pre + rest == rest;
    } else {
      assert (pre + rest)[1..] == pre[1..] + rest;
      LeadingSpaceOfPadded(pre[1..], rest);
    }
  }

  /** A non-space character followed by whitespace: `strip()` skips exactly
      that whitespace at the back. */
  lemma {:induction false} TrailingSpaceOfPadded(init: string, post: string)
    requires init != [] && !IsSpace(init[|init| - 1]) && AllSpace(post)
    ensures TrailingSpaceStart(init + post) == |init|
  {
    if post == [] {
      assert init + post == init;
    } else {
      assert (init + post)[..|init + post| - 1] == init + post[..|post| - 1];
      TrailingSpaceOfPadded(init, post[..|post| - 1]);
    }
  }

  /** `strip()` removes exactly the whitespace padding around a text that
      neither starts nor ends with whitespace. */
  lemma StripPadded(pre: string, t: string, post: string)
    requires AllSpace(pre) && AllSpace(post)
    requires t != [] && !IsSpace(t[0]) && !IsSpace(t[|t| - 1])
    ensures Strip(pre + t + post) == t
  {
    var s := pre + t + post;
    assert s == pre + (t + post);
    LeadingSpaceOfPadded(pre, t + post);
    assert s == (pre + t) + post;
    TrailingSpaceOfPadded(pre + t, post);
    assert s[|pre|..|pre| + |t|] == t;
  }

  /** One item of `split()`'s result: a non-empty run of non-space characters. */
  predicate IsWord(w: string) {
    w != [] && forall k :: 0 <= k < |w| ==> !IsSpace(w[k])
  }

  /** The length of the run of non-space characters `s` starts with. */
  function WordLen(s: string): (n: nat)
    ensures n <= |s|
    ensures forall k :: 0 <= k < n ==> !IsSpace(s[k])
    ensures n < |s| ==> IsSpace(s[n])
  {
    if s == [] || IsSpace(s[0]) then 0 else 1 + WordLen(s[1..])
  }

  /** `s.split()` with no separator: the maximal runs of non-space characters,
      in order. */
  function Words(s: string): (r: seq<string>)
    ensures forall k :: 0 <= k < |r| ==> IsWord(r[k])
    ensures r == [] <==> AllSpace(s)
    decreases |s|
  {
    if s == [] then []
    else if IsSpace(s[0]) then
      var r := Words(s[1..]);
      assert AllSpace(s[1..]) ==> AllSpace(s) by {
        if AllSpace(s[1..]) {
          forall k | 1 <= k < |s| ensures IsSpace(s[k]) { assert s[k] == s[1..][k - 1]; }
        }
      }
      r
    else
      var n := WordLen(s);
      [s[..n]] + Words(s[n..])
  }

  /** The words joined by single spaces, as `" ".join(ws)`. */
  function Join(ws: seq<string>): string {
    if |ws| == 0 then []
    else if |ws| == 1 then ws[0]
    else ws[0] + " " + Join(ws[1..])
  }

  lemma {:induction false} WordLenOfWord(w: string, rest: string)
    requires IsWord(w)
    requires rest == [] || IsSpace(rest[0])
    ensures WordLen(w + rest) == |w|
    decreases |w|
  {
    if |w| > 1 {
      assert (w + rest)[1..] == w[1..] + rest;
      WordLenOfWord(w[1..], rest);
    } else {
      assert (w + rest)[1..] == rest;
    }
  }

  lemma WordsOfWordThen(w: string, rest: string)
    requires IsWord(w)
    requires rest == [] || IsSpace(rest[0])
    ensures Words(w + rest) == [w] + Words(rest)
  {
    WordLenOfWord(w, rest);
    assert (w + rest)[..|w|] == w;
    assert (w + rest)[|w|..] == rest;
  }

  /** Splitting undoes joining: `" ".join(ws).split() == ws` for words without
      whitespace. */
  lemma {:induction false} WordsOfJoin(ws: seq<string>)
    requires forall k :: 0 <= k < |ws| ==> IsWord(ws[k])
    ensures Words(Join(ws)) == ws
  {
    if |ws| == 1 {
      WordsOfWordThen(ws[0], []);
      assert ws[0] + [] == ws[0];
    } else if |ws| > 1 {
      var tail := Join(ws[1..]);
      assert ws[0] + " " + tail == ws[0] + (" " + tail);
      WordsOfWordThen(ws[0], " " + tail);
      assert (" " + tail)[1..] == tail;
      WordsOfJoin(ws[1..]);
      assert ws == [ws[0]] + ws[1..];
    }
  }

  /** A single word splits into itself. */
  lemma WordsOfWord(w: string)
    requires IsWord(w)
    ensures Words(w) == [w]
  {
    WordsOfWordThen(w, []);
    assert w + [] == w;
  }

  /** Leading whitespace produces no field. */
  lemma WordsSkipSpace(s: string)
    requires s != [] && IsSpace(s[0])
    ensures Words(s) == Words(s[1..])
  {
  }

  /** `split()` cuts at every whitespace character: the fields of text on
      either side of one are the fields of each side. */
  lemma {:induction false} WordsSplitAtSpace(u: string, c: char, v: string)
    requires IsSpace(c)
    ensures Words(u + [c] + v) == Words(u) + Words(v)
    decreases |u|
  {
    if u == [] {
      assert u + [c] + v == [c] + v;
      WordsSkipSpace([c] + v);
      assert ([c] + v)[1..] == v;
    } else if IsSpace(u[0]) {
      assert (u + [c] + v)[1..] == u[1..] + [c] + v;
      WordsSkipSpace(u + [c] + v);
      WordsSkipSpace(u);
      WordsSplitAtSpace(u[1..], c, v);
    } else {
      var n := WordLen(u);
      var w, rest := u[..n], u[n..];
      assert u == w + rest;
      assert IsWord(w) by { assert forall k :: 0 <= k < |w| ==> w[k] == u[k]; }
      WordsSplitAtSpace(rest, c, v);
      WordsSplitAfterWord(w, rest, c, v);
    }
  }

  /** The step of `WordsSplitAtSpace` for text that starts with a word. */
  lemma WordsSplitAfterWord(w: string, rest: string, c: char, v: string)
    requires IsSpace(c) && IsWord(w) && (rest == [] || IsSpace(rest[0]))
    requires Words(rest + [c] + v) == Words(rest) + Words(v)
    ensures Words(w + rest + [c] + v) == Words(w + rest) + Words(v)
  {
    WordsOfWordThen(w, rest);
    WordThenSpace(w, rest, c, v);
    PrependThenAppend(Words(w + rest + [c] + v), Words(w + rest), w, Words(rest + [c] + v), Words(rest), Words(v));
  }

  /** Sequence algebra for the `Words` and `ReplaceAll` steps, on plain sequences so
      that using it unfolds neither `Words` nor `ReplaceAll`. */
  lemma PrependThenAppend3<T>(whole: seq<T>, left: seq<T>, x: T, tail: seq<T>, mid: seq<T>, a: seq<T>, b: seq<T>)
    requires left == [x] + mid && whole == [x] + tail && tail == mid + a + b
    ensures whole == left + a + b
  {
  }

  /** Two-part form of `PrependThenAppend3`. */
  lemma PrependThenAppend<T>(whole: seq<T>, left: seq<T>, x: T, tail: seq<T>, mid: seq<T>, right: seq<T>)
    requires left == [x] + mid && whole == [x] + tail && tail == mid + right
    ensures whole == left + right
  {
  }

  /** A word, then text that starts with whitespace or is empty, then one
      whitespace character: the word is the first field. */
  lemma WordThenSpace(w: string, rest: string, c: char, v: string)
    requires IsSpace(c) && IsWord(w) && (rest == [] || IsSpace(rest[0]))
    ensures Words(w + rest + [c] + v) == [w] + Words(rest + [c] + v)
  {
    assert w + rest + [c] + v == w + (rest + [c] + v);
    assert IsSpace((rest + [c] + v)[0]) by {
      if rest == [] { assert (rest + [c] + v)[0] == c; }
    }
    WordsOfWordThen(w, rest + [c] + v);
  }

  /** `s.startswith(p)` */
  predicate StartsWith(s: string, p: string) {
    |p| <= |s| && s[..|p|] == p
  }

  /** `w in s` for strings: `w` occurs in `s` at some position. */
  predicate Contains(s: string, w: string)
    decreases |s|
  {
    StartsWith(s, w) || (s != [] && Contains(s[1..], w))
  }

  /** A string contains every infix of itself. */
  lemma {:induction false} ContainsInfix(x: string, y: string, z: string)
    ensures Contains(x + y + z, y)
    decreases |x|
  {
    if x == [] {
      assert x + y + z == y + z;
      assert (y + z)[..|y|] == y;
    } else {
      assert (x + y + z)[1..] == x[1..] + y + z;
      ContainsInfix(x[1..], y, z);
    }
  }

  /** `s.replace(pat, rep)`: every occurrence of `pat`, scanning left to
      right without overlap, is replaced by `rep`. */
  function ReplaceAll(s: string, pat: string, rep: string): (r: string)
    requires pat != []
    ensures !Contains(s, pat) ==> r == s
    decreases |s|
  {
    if StartsWith(s, pat) then rep + ReplaceAll(s[|pat|..], pat, rep)
    else if s == [] then []
    else [s[0]] + ReplaceAll(s[1..], pat, rep)
  }

  /** The first occurrence of the pattern is replaced, and the scan goes on
      after it: text `u` in which no occurrence starts is kept, the
      occurrence becomes `rep`, and the rest is replaced in turn. */
  lemma {:induction false} ReplaceFirstOccurrence(u: string, pat: string, rep: string, v: string)
    requires pat != []
    requires forall k :: 0 <= k < |u| ==> !StartsWith((u + pat + v)[k..], pat)
    ensures ReplaceAll(u + pat + v, pat, rep) == u + rep + ReplaceAll(v, pat, rep)
    decreases |u|
  {
    if u == [] {
      ReplaceAtOccurrence(pat + v, pat, rep, v);
      assert u + pat + v == pat + v;
    } else {
      NoEarlyOccurrenceInTail(u, pat, v);
      ReplaceFirstOccurrence(u[1..], pat, rep, v);
      assert (u + pat + v)[0..] == u + pat + v;
      ReplaceKeepFirstOfText(u, pat, rep, v);
    }
  }

  /** Dropping the first character of `u` keeps the text before the
      occurrence free of earlier occurrences. */
  lemma NoEarlyOccurrenceInTail(u: string, pat: string, v: string)
    requires u != []
    requires forall k :: 0 <= k < |u| ==> !StartsWith((u + pat + v)[k..], pat)
    ensures forall k :: 0 <= k < |u[1..]| ==> !StartsWith((u[1..] + pat + v)[k..], pat)
  {
    var s, s' := u + pat + v, u[1..] + pat + v;
    forall k | 0 <= k < |u[1..]|
      ensures !StartsWith(s'[k..], pat)
    {
      assert s'[k..] == s[k + 1..];
    }
  }

  /** The step of `ReplaceFirstOccurrence`: the first character of `u` is
      kept in front of the tail's replacement. */
  lemma ReplaceKeepFirstOfText(u: string, pat: string, rep: string, v: string)
    requires pat != [] && u != [] && !StartsWith(u + pat + v, pat)
    requires ReplaceAll(u[1..] + pat + v, pat, rep) == u[1..] + rep + ReplaceAll(v, pat, rep)
    ensures ReplaceAll(u + pat + v, pat, rep) == u + rep + ReplaceAll(v, pat, rep)
  {
    ReplaceKeepsFirstOfText(u, pat, rep, v);
    PrependThenAppend3(ReplaceAll(u + pat + v, pat, rep), u, u[0], ReplaceAll(u[1..] + pat + v, pat, rep),
      u[1..], rep, ReplaceAll(v, pat, rep));
  }

  lemma ReplaceKeepsFirstOfText(u: string, pat: string, rep: string, v: string)
    requires pat != [] && u != [] && !StartsWith(u + pat + v, pat)
    ensures ReplaceAll(u + pat + v, pat, rep) == [u[0]] + ReplaceAll(u[1..] + pat + v, pat, rep)
  {
    var s := u + pat + v;
    assert s[1..] == u[1..] + pat + v && s[0] == u[0];
    ReplaceKeepsFirst(s, pat, rep);
  }

  /** Text starting with the pattern: the pattern is replaced and the scan
      resumes after it. */
  lemma ReplaceAtOccurrence(s: string, pat: string, rep: string, v: string)
    requires pat != [] && s == pat + v
    ensures ReplaceAll(s, pat, rep) == rep + ReplaceAll(v, pat, rep)
  {
    assert s[..|pat|] == pat;
    assert s[|pat|..] == v;
  }

  /** Text not starting with the pattern keeps its first character. */
  lemma ReplaceKeepsFirst(s: string, pat: string, rep: string)
    requires pat != [] && s != [] && !StartsWith(s, pat)
    ensures ReplaceAll(s, pat, rep) == [s[0]] + ReplaceAll(s[1..], pat, rep)
  {
  }

  /** Replacing a whole string by itself gives the replacement. */
  lemma ReplaceWhole(pat: string, rep: string)
    requires pat != []
    ensures ReplaceAll(pat, pat, rep) == rep
  {
    assert pat[..|pat|] == pat;
    assert pat[|pat|..] == [];
    assert ReplaceAll([], pat, rep) == [];
  }

  /** ASCII lower-casing of one character. */
  function LowerChar(c: char): char {
    if 'A' <= c <= 'Z' then (c as int - 'A' as int + 'a' as int) as char else c
  }

  /** `s.lower()`, restricted to ASCII letters. */
  function ToLower(s: string): (r: string)
    ensures |r| == |s|
    ensures forall k :: 0 <= k < |s| ==> r[k] == LowerChar(s[k])
  {
    seq(|s|, k requires 0 <= k < |s| => LowerChar(s[k]))
  }

  /** Lower-casing works character by character, so it distributes over
      concatenation. */
  lemma ToLowerAppend(x: string, y: string, z: string)
    ensures ToLower(x + y + z) == ToLower(x) + ToLower(y) + ToLower(z)
  {
  }

  predicate IsDigit(c: char) {
    '0' <= c <= '9'
  }

  predicate AllDigits(s: string) {
    forall k :: 0 <= k < |s| ==> IsDigit(s[k])
  }

  function DigitValue(c: char): nat
    requires IsDigit(c)
  {
    c as int - '0' as int
  }

  function DigitChar(d: nat): (c: char)
    requires d < 10
    ensures IsDigit(c) && DigitValue(c) == d
  {
    ('0' as int + d) as char
  }

  /** The number a string of decimal digits denotes (leading zeros allowed). */
  function DigitsValue(s: string): nat
    requires AllDigits(s)
  {
    if s == [] then 0 else DigitsValue(s[..|s| - 1]) * 10 + DigitValue(s[|s| - 1])
  }

  /** The decimal rendering `str(n)` of a natural number: digits only, and no
      leading zero unless the number is zero. */
  function NatToDecimal(n: nat): (r: string)
    ensures r != [] && AllDigits(r)
    ensures |r| > 1 ==> r[0] != '0'
  {
    if n < 10 then [DigitChar(n)] else NatToDecimal(n / 10) + [DigitChar(n % 10)]
  }

  /** Reading back a rendered number gives the number. */
  lemma {:induction false} DecimalRoundTrip(n: nat)
    ensures DigitsValue(NatToDecimal(n)) == n
  {
    if n >= 10 {
      var s := NatToDecimal(n);
      assert s[..|s| - 1] == NatToDecimal(n / 10);
      DecimalRoundTrip(n / 10);
    }
  }

  /** Distinct numbers render as distinct strings. */
  lemma NatToDecimalInjective(a: nat, b: nat)
    ensures NatToDecimal(a) == NatToDecimal(b) ==> a == b
  {
    DecimalRoundTrip(a);
    DecimalRoundTrip(b);
  }

  /** The digit part `int()` accepts after an optional sign: digits, with single
      underscores allowed between them. */
  predicate IsDigitGroups(b: string) {
    && b != []
    && IsDigit(b[0])
    && IsDigit(b[|b| - 1])
    && (forall k :: 0 <= k < |b| ==> IsDigit(b[k]) || b[k] == '_')
    && (forall k :: 0 < k < |b| ==> !(b[k - 1] == '_' && b[k] == '_'))
  }

  function DropUnderscores(b: string): (r: string)
    requires forall k :: 0 <= k < |b| ==> IsDigit(b[k]) || b[k] == '_'
    ensures AllDigits(r)
    ensures AllDigits(b) ==> r == b
  {
    if b == [] then []
    else if b[0] == '_' then DropUnderscores(b[1..])
    else [b[0]] + DropUnderscores(b[1..])
  }

  predicate HasInfoSeparator(s: string) {
    exists k :: 0 <= k < |s| && IsInfoSeparator(s[k])
  }

  /** Python's `int(s)` for base 10: surrounding whitespace, an optional sign,
      then digit groups; anything else raises `ValueError`, modelled as `None`.
      `int()` trims only `IsIntSpace` characters. An information separator is
      therefore never trimmed, and as it cannot be part of a number, text
      holding one is rejected wherever it stands. Text without one holds no
      whitespace outside `IsIntSpace`, so trimming it equals `strip()`. */
  function ParseInt(s: string): (r: Option<int>)
    ensures r.Some? ==> !AllSpace(s)
  {
    if HasInfoSeparator(s) then None else ParseSigned(Strip(s))
  }

  /** `int()` on text with no surrounding whitespace. */
  function ParseSigned(t: string): Option<int> {
    if t == [] then None
    else
      var body := if t[0] == '-' || t[0] == '+' then t[1..] else t;
      match Unsigned(body)
      case None => None
      case Some(v) => Some(if t[0] == '-' then -(v as int) else v as int)
  }

  /** The value of the digit part after the sign, if it is well formed. */
  function Unsigned(body: string): (r: Option<nat>)
    ensures r.Some? <==> IsDigitGroups(body)
  {
    if IsDigitGroups(body) then Some(DigitsValue(DropUnderscores(body))) else None
  }

  /** The decimal rendering `str(n)` of an integer. */
  function IntToDecimal(n: int): string {
    if n < 0 then "-" + NatToDecimal(-n) else NatToDecimal(n)
  }

  /** A plain run of digits is a valid digit part with nothing to drop. */
  lemma DigitsAreGroups(d: string)
    requires d != [] && AllDigits(d)
    ensures IsDigitGroups(d) && DropUnderscores(d) == d
  {
  }

  /** `int(str(n)) == n` for every integer. */
  lemma ParseIntRoundTrip(n: int)
    ensures ParseInt(IntToDecimal(n)) == Some(n)
  {
    var m: nat := if n < 0 then -n else n;
    var d := NatToDecimal(m);
    DecimalRoundTrip(m);
    if n < 0 {
      var t := "-" + d;
      assert t[1..] == d;
      NegativeDigitsRoundTrip(t);
    } else {
      DigitsRoundTrip(d);
    }
  }

  /** A plain run of digits reads back as its value. */
  lemma DigitsRoundTrip(d: string)
    requires d != [] && AllDigits(d)
    ensures ParseInt(d) == Some(DigitsValue(d) as int)
  {
    ParseIntTrimmed(d);
    PlainDigits(d);
  }

  /** A minus sign and a run of digits read back as the negated value. */
  lemma NegativeDigitsRoundTrip(t: string)
    requires |t| > 1 && t[0] == '-' && AllDigits(t[1..])
    ensures ParseInt(t) == Some(-(DigitsValue(t[1..]) as int))
  {
    assert t[1..][|t| - 2] == t[|t| - 1];
    assert forall k :: 1 <= k < |t| ==> t[k] == t[1..][k - 1];
    ParseIntTrimmed(t);
    NegatedDigits(t);
  }

  /** On text with no surrounding whitespace, `int()` skips no whitespace. */
  lemma ParseIntTrimmed(t: string)
    requires t != [] && !IsSpace(t[0]) && !IsSpace(t[|t| - 1])
    requires forall k :: 0 <= k < |t| ==> IsDigit(t[k]) || t[k] in "+-_"
    ensures ParseInt(t) == ParseSigned(t)
  {
    StripUntrimmed(t);
    assert !HasInfoSeparator(t) by {
      forall k | 0 <= k < |t| ensures !IsInfoSeparator(t[k]) {
        assert IsDigit(t[k]) || t[k] in "+-_";
      }
    }
  }

  /** The sign-free reading of a rendered number is the number. */
  lemma SignedRoundTrip(n: int)
    ensures ParseSigned(IntToDecimal(n)) == Some(n)
  {
    var m: nat := if n < 0 then -n else n;
    var d := NatToDecimal(m);
    DecimalRoundTrip(m);
    if n < 0 {
      var t := "-" + d;
      assert t[1..] == d;
      NegatedDigits(t);
    } else {
      PlainDigits(d);
    }
  }

  /** A rendered number is a sign or digit, then digits, ending in a digit. */
  lemma DecimalShape(n: int)
    ensures var t := IntToDecimal(n);
      && t != [] && IsDigit(t[|t| - 1])
      && forall k :: 0 <= k < |t| ==> IsDigit(t[k]) || t[k] == '-'
  {
  }

  /** `int()` accepts a rendered number with any whitespace it trims on either
      side: `int(" 12\n") == 12`. */
  lemma ParseIntPadded(pre: string, n: int, post: string)
    requires forall k :: 0 <= k < |pre| ==> IsIntSpace(pre[k])
    requires forall k :: 0 <= k < |post| ==> IsIntSpace(post[k])
    ensures ParseInt(pre + IntToDecimal(n) + post) == Some(n)
  {
    var t := IntToDecimal(n);
    DecimalShape(n);
    assert !IsSpace(t[0]) by {
      assert IsDigit(t[0]) || t[0] == '-';
    }
    StripPadded(pre, t, post);
    NoSeparatorPadded(pre, t, post);
    SignedRoundTrip(n);
  }

  /** Padding of `int()` whitespace around digits, signs and underscores
      holds no information separator. */
  lemma NoSeparatorPadded(pre: string, t: string, post: string)
    requires forall k :: 0 <= k < |pre| ==> IsIntSpace(pre[k])
    requires forall k :: 0 <= k < |t| ==> IsDigit(t[k]) || t[k] in "+-_"
    requires forall k :: 0 <= k < |post| ==> IsIntSpace(post[k])
    ensures !HasInfoSeparator(pre + t + post)
  {
    var s := pre + t + post;
    forall k | 0 <= k < |s| ensures !IsInfoSeparator(s[k]) {
      if k < |pre| {
        assert s[k] == pre[k];
      } else if k < |pre| + |t| {
        assert s[k] == t[k - |pre|];
      } else {
        assert s[k] == post[k - |pre| - |t|];
      }
    }
  }

  /** `int()` on well-formed digit groups: single underscores between digits
      are dropped, leading zeros are kept as the same value (`int("007") == 7`),
      and a leading `+` changes nothing while a leading `-` negates. */
  lemma ParseIntGroups(d: string)
    requires IsDigitGroups(d)
    ensures ParseInt(d) == Some(DigitsValue(DropUnderscores(d)) as int)
    ensures ParseInt("+" + d) == ParseInt(d)
    ensures ParseInt("-" + d).Some? && ParseInt("-" + d).value == -ParseInt(d).value
  {
    ParseIntTrimmed(d);
    var plus, minus := "+" + d, "-" + d;
    assert plus[0] == '+' && plus[1..] == d;
    assert minus[0] == '-' && minus[1..] == d;
    SignedGroups(plus);
    SignedGroups(minus);
  }

  /** A sign before well-formed digit groups is read as a sign. */
  lemma SignedGroups(t: string)
    requires |t| > 1 && (t[0] == '+' || t[0] == '-') && IsDigitGroups(t[1..])
    ensures t[0] == '+' ==> ParseInt(t) == Some(DigitsValue(DropUnderscores(t[1..])) as int)
    ensures t[0] == '-' ==> ParseInt(t).Some? && ParseInt(t).value == -(DigitsValue(DropUnderscores(t[1..])) as int)
  {
    SignedTrimmed(t);
    SignedValue(t);
  }

  /** A sign before well-formed digit groups leaves nothing for `int()` to
      trim. */
  lemma SignedTrimmed(t: string)
    requires |t| > 1 && (t[0] == '+' || t[0] == '-') && IsDigitGroups(t[1..])
    ensures ParseInt(t) == ParseSigned(t)
  {
    forall k | 0 <= k < |t| ensures IsDigit(t[k]) || t[k] in "+-_" {
      if k > 0 {
        assert t[k] == t[1..][k - 1];
      }
    }
    assert t[|t| - 1] == t[1..][|t| - 2];
    ParseIntTrimmed(t);
  }

  lemma SignedValue(t: string)
    requires |t| > 1 && (t[0] == '+' || t[0] == '-') && IsDigitGroups(t[1..])
    ensures ParseSigned(t) == Some(
      if t[0] == '-' then -(DigitsValue(DropUnderscores(t[1..])) as int)
      else DigitsValue(DropUnderscores(t[1..])) as int)
  {
    var v := DigitsValue(DropUnderscores(t[1..]));
    assert Unsigned(t[1..]) == Some(v);
  }

  lemma PlainDigits(d: string)
    requires d != [] && AllDigits(d)
    ensures ParseSigned(d) == Some(DigitsValue(d) as int)
  {
    DigitsAreGroups(d);
  }

  lemma NegatedDigits(t: string)
    requires |t| > 1 && t[0] == '-' && AllDigits(t[1..])
    ensures ParseSigned(t) == Some(-(DigitsValue(t[1..]) as int))
  {
    DigitsAreGroups(t[1..]);
  }

  /** What `int()` reads between the whitespace it trims: an optional sign,
      then digit groups. */
  predicate IsIntLiteral(t: string) {
    || IsDigitGroups(t)
    || (t != [] && (t[0] == '+' || t[0] == '-') && IsDigitGroups(t[1..]))
  }

  /** `s[i..j]` is a literal with only whitespace `int()` trims around it. */
  predicate LiteralBetween(s: string, i: nat, j: nat) {
    && i <= j <= |s|
    && AllIntSpace(s[..i])
    && IsIntLiteral(s[i..j])
    && AllIntSpace(s[j..])
  }

  /** `int()` accepts nothing else: text it reads is trimmed whitespace, a
      literal, then trimmed whitespace. So `"1 000"`, `"1__0"`, `"_1"`, `"1_"`
      and `"+-1"` are all rejected. */
  lemma ParseIntOnlyWellFormed(s: string)
    requires ParseInt(s).Some?
    ensures exists i: nat, j: nat :: LiteralBetween(s, i, j)
  {
    SignedLiteral(Strip(s));
    StrippedLiteral(s);
  }

  /** A literal left by `strip()` of text without information separators lies
      between whitespace `int()` trims. */
  lemma StrippedLiteral(s: string)
    requires !HasInfoSeparator(s) && IsIntLiteral(Strip(s))
    ensures exists i: nat, j: nat :: LiteralBetween(s, i, j)
  {
    var i := LeadingSpace(s);
    StrippedIsIntSpace(s);
    assert LiteralBetween(s, i, i + |Strip(s)|);
  }

  /** Without information separators, what `strip()` removes is whitespace
      `int()` trims. */
  lemma StrippedIsIntSpace(s: string)
    requires !HasInfoSeparator(s)
    ensures var i := LeadingSpace(s);
            && s[i..i + |Strip(s)|] == Strip(s)
            && AllIntSpace(s[..i]) && AllIntSpace(s[i + |Strip(s)|..])
  {
    var i := LeadingSpace(s);
    var j := i + |Strip(s)|;
    IntSpaceSlice(s, 0, i);
    assert s[..i] == s[0..i];
    IntSpaceSlice(s, j, |s|);
    assert s[j..] == s[j..|s|];
  }

  /** Whitespace in text without information separators is whitespace
      `int()` trims. */
  lemma IntSpaceSlice(s: string, a: nat, b: nat)
    requires !HasInfoSeparator(s) && a <= b <= |s|
    requires forall k :: a <= k < b ==> IsSpace(s[k])
    ensures AllIntSpace(s[a..b])
  {
    forall k | 0 <= k < b - a ensures IsIntSpace(s[a..b][k]) {
      assert s[a..b][k] == s[a + k];
      assert !IsInfoSeparator(s[a + k]);
    }
  }

  /** Text `int()` reads without trimming is a literal. */
  lemma SignedLiteral(t: string)
    requires ParseSigned(t).Some?
    ensures IsIntLiteral(t)
  {
  }

  /** ... and `int()` accepts all of it: trimmed whitespace, a literal, then
      trimmed whitespace always reads as a number. */
  lemma ParseIntWellFormed(s: string, i: nat, j: nat)
    requires LiteralBetween(s, i, j)
    ensures ParseInt(s).Some?
  {
    var pre, t, post := s[..i], s[i..j], s[j..];
    assert s == pre + t + post;
    LiteralShape(t);
    assert AllSpace(pre) by {
      forall k | 0 <= k < |pre| ensures IsSpace(pre[k]) {
        assert IsIntSpace(pre[k]);
      }
    }
    assert AllSpace(post) by {
      forall k | 0 <= k < |post| ensures IsSpace(post[k]) {
        assert IsIntSpace(post[k]);
      }
    }
    StripPadded(pre, t, post);
    NoSeparatorPadded(pre, t, post);
    LiteralParses(t);
  }

  /** A literal starts with a digit or a sign, ends with a digit, and holds
      only digits, signs and underscores. */
  lemma LiteralShape(t: string)
    requires IsIntLiteral(t)
    ensures t != [] && !IsSpace(t[0]) && !IsSpace(t[|t| - 1])
    ensures forall k :: 0 <= k < |t| ==> IsDigit(t[k]) || t[k] in "+-_"
  {
    if !IsDigitGroups(t) {
      var d := t[1..];
      assert t[|t| - 1] == d[|d| - 1];
      forall k | 1 <= k < |t| ensures IsDigit(t[k]) || t[k] in "+-_" {
        assert t[k] == d[k - 1];
      }
    }
  }

  /** A literal with nothing around it reads as a number. */
  lemma LiteralParses(t: string)
    requires IsIntLiteral(t)
    ensures ParseSigned(t).Some?
  {
    if IsDigitGroups(t) {
      assert Unsigned(t).Some?;
    } else {
      assert Unsigned(t[1..]).Some?;
    }
  }

  /** `int()` raises on any text holding a character that is neither
      whitespace `int()` trims, a digit, a sign nor an underscore. */
  lemma ParseIntRejectsForeign(s: string, k: nat)
    requires k < |s|
    requires !IsIntSpace(s[k]) && !IsDigit(s[k]) && s[k] !in "+-_"
    ensures ParseInt(s) == None
  {
    if IsInfoSeparator(s[k]) {
      return;
    }
    var t := Strip(s);
    var i := LeadingSpace(s);
    assert i <= k < i + |t|;
    assert t[k - i] == s[k];
    if t[0] == '-' || t[0] == '+' {
      assert k - i > 0;
      assert t[1..][k - i - 1] == s[k];
    }
  }
}

=== FILE: topics.dfy ===
/**
 The topic loop of one logged-in session: `get_views`, `try_like` and the
 selection and counting part of `browse_topics`. The browser is an oracle:
 every fact `app.py` reads from the live page (pinned marker, link text,
 `href`, view-count elements, whether the topic page opened, the like
 buttons and whether clicking one worked) is a field of the input.
 */
module Topics {
  import opened Results
  import opened Text

  /** At most this many topics of the listing are examined. */
  const MaxTopics := 20

  function Min(a: nat, b: nat): nat {
    if a <= b then a else b
  }

  // ---------------------------------------------------------------------------
  // View counts

  /** The view-count element one selector found in a topic's row: its `title`
      attribute (empty when absent) and its text. */
  datatype ViewCell = ViewCell(title: string, text: string)

  /** The number of non-digits `s` starts with. */
  function NonDigitPrefix(s: string): (n: nat)
    ensures n <= |s|
    ensures forall k :: 0 <= k < n ==> !IsDigit(s[k])
    ensures n < |s| ==> IsDigit(s[n])
  {
    if s == [] || IsDigit(s[0]) then 0 else 1 + NonDigitPrefix(s[1..])
  }

  /** The number of digits `s` starts with. */
  function DigitPrefix(s: string): (n: nat)
    ensures n <= |s|
    ensures forall k :: 0 <= k < n ==> IsDigit(s[k])
    ensures n < |s| ==> !IsDigit(s[n])
  {
    if s == [] || !IsDigit(s[0]) then 0 else 1 + DigitPrefix(s[1..])
  }

  /** `s[i..j]` is the first maximal run of digits in `s`. */
  predicate IsFirstDigitRun(s: string, i: nat, j: nat) {
    && i < j <= |s|
    && (forall k :: 0 <= k < i ==> !IsDigit(s[k]))
    && (forall k :: i <= k < j ==> IsDigit(s[k]))
    && (j == |s| || !IsDigit(s[j]))
  }

  /** `int(re.findall(r'\d+', s)[0])`, or `None` when `s` has no digit. */
  function FirstNumber(s: string): (r: Option<nat>)
    ensures r.None? <==> forall k :: 0 <= k < |s| ==> !IsDigit(s[k])
  {
    var i := NonDigitPrefix(s);
    if i == |s| then None
    else
      var run := s[i..i + DigitPrefix(s[i..])];
      Some(DigitsValue(run))
  }

  /** The number `FirstNumber` reads is the value of the first maximal digit
      run, wherever that run is. */
  lemma FirstNumberIsFirstRun(s: string, i: nat, j: nat)
    requires IsFirstDigitRun(s, i, j)
    ensures FirstNumber(s) == Some(DigitsValue(s[i..j]))
  {
    assert IsDigit(s[i]);
    assert NonDigitPrefix(s) == i;
    var n := DigitPrefix(s[i..]);
    assert forall m :: 0 <= m < |s| - i ==> s[i..][m] == s[i + m];
    assert i + n == j;
  }

  /** Every text with a digit has a first maximal digit run. */
  lemma FirstDigitRunExists(s: string, k: nat)
    requires k < |s| && IsDigit(s[k])
    ensures exists i, j :: IsFirstDigitRun(s, i, j)
  {
    var i := NonDigitPrefix(s);
    assert i < |s|;
    DigitRunAt(s, i);
    assert IsFirstDigitRun(s, i, i + DigitPrefix(s[i..]));
  }

  /** The digits a suffix starts with form a maximal digit run of `s`. */
  lemma DigitRunAt(s: string, i: nat)
    requires i < |s| && IsDigit(s[i])
    ensures var n := DigitPrefix(s[i..]);
            && 0 < n && i + n <= |s|
            && (forall m :: i <= m < i + n ==> IsDigit(s[m]))
            && (i + n == |s| || !IsDigit(s[i + n]))
  {
    var t := s[i..];
    var n := DigitPrefix(t);
    assert t[0] == s[i];
    forall m | i <= m < i + n ensures IsDigit(s[m]) {
      assert t[m - i] == s[m];
    }
    if i + n < |s| {
      assert t[n] == s[i + n];
    }
  }

  /** `s.replace(',', '')`: the same characters, commas excepted. */
  function RemoveCommas(s: string): (r: string)
    ensures |r| <= |s|
    ensures forall k :: 0 <= k < |r| ==> r[k] != ','
    ensures (forall k :: 0 <= k < |s| ==> s[k] != ',') ==> r == s
    ensures multiset(r) == multiset(s)[',' := 0]
  {
    if s == [] then []
    else
      assert s == [s[0]] + s[1..];
      if s[0] == ',' then RemoveCommas(s[1..])
      else [s[0]] + RemoveCommas(s[1..])
  }

  /** Commas are removed piecewise, so the other characters keep their
      order. */
  lemma {:induction false} RemoveCommasAppend(a: string, b: string)
    ensures RemoveCommas(a + b) == RemoveCommas(a) + RemoveCommas(b)
    decreases |a|
  {
    if a == [] {
      assert a + b == b;
    } else {
      assert (a + b)[1..] == a[1..] + b;
      RemoveCommasAppend(a[1..], b);
    }
  }

  /** One character: a comma vanishes, anything else stays. */
  lemma RemoveCommasChar(c: char)
    ensures RemoveCommas([c]) == (if c == ',' then [] else [c])
  {
    assert [c][1..] == [];
  }

  predicate HasDigit(s: string) {
    exists k :: 0 <= k < |s| && IsDigit(s[k])
  }

  lemma HasDigitCons(s: string)
    requires s != []
    ensures HasDigit(s) <==> IsDigit(s[0]) || HasDigit(s[1..])
  {
    if k :| 0 <= k < |s| && IsDigit(s[k]) {
      if k > 0 {
        assert s[1..][k - 1] == s[k];
      }
    }
    if k :| 0 <= k < |s[1..]| && IsDigit(s[1..][k]) {
      assert s[k + 1] == s[1..][k];
    }
  }

  /** Removing commas neither adds nor removes a digit. */
  lemma {:induction false} RemoveCommasDigits(s: string)
    ensures HasDigit(s) <==> HasDigit(RemoveCommas(s))
    decreases |s|
  {
    if s != [] {
      RemoveCommasDigits(s[1..]);
      HasDigitCons(s);
      var r := RemoveCommas(s);
      if s[0] != ',' {
        assert r == [s[0]] + RemoveCommas(s[1..]);
        HasDigitCons(r);
        assert r[1..] == RemoveCommas(s[1..]);
      }
    }
  }

  /** What one view-count element yields: the first number in its title
      followed by its stripped text, commas removed. */
  function CellViews(cell: ViewCell): Option<nat> {
    FirstNumber(RemoveCommas(cell.title + Strip(cell.text)))
  }

  /** An element yields no number exactly when neither its title nor its
      stripped text holds a digit; commas never hide or create one. */
  lemma CellViewsNone(cell: ViewCell)
    ensures CellViews(cell).None? <==> !HasDigit(cell.title + Strip(cell.text))
  {
    RemoveCommasDigits(cell.title + Strip(cell.text));
  }

  /** `cells[k]` is present and yields a number. */
  predicate Yields(cells: seq<Option<ViewCell>>, k: nat)
    requires k < |cells|
  {
    cells[k].Some? && CellViews(cells[k].value).Some?
  }

  /** `get_views`: the view-count selectors are tried in order (`None` where a
      selector finds no element in the row); the first element holding a
      number decides, and 0 is the fallback. */
  function GetViews(cells: seq<Option<ViewCell>>): (r: nat)
    ensures (forall k :: 0 <= k < |cells| ==> !Yields(cells, k)) ==> r == 0
  {
    if cells == [] then 0
    else if Yields(cells, 0) then CellViews(cells[0].value).value
    else
      var r := GetViews(cells[1..]);
      assert forall k :: 0 <= k < |cells| - 1 ==> Yields(cells[1..], k) == Yields(cells, k + 1);
      r
  }

  /** The first selector whose element holds a number gives the view count. */
  lemma {:induction false} GetViewsFirstYield(cells: seq<Option<ViewCell>>, k: nat)
    requires k < |cells| && Yields(cells, k)
    requires forall j :: 0 <= j < k ==> !Yields(cells, j)
    ensures GetViews(cells) == CellViews(cells[k].value).value
  {
    if k > 0 {
      assert !Yields(cells, 0);
      assert forall j :: 0 <= j < |cells| - 1 ==> Yields(cells[1..], j) == Yields(cells, j + 1);
      GetViewsFirstYield(cells[1..], k - 1);
    }
  }

  // ---------------------------------------------------------------------------
  // Liking

  /** What reading one button found by a like selector gives: either an
      exception (`Unreadable`, which abandons the rest of that selector's
      buttons) or its visibility, its `title` attribute and whether
      `safe_click` on it reports success. */
  datatype ButtonProbe =
    | Unreadable
    | Button(displayed: bool, title: string, clickSucceeds: bool)

  /** The lower-cased title marks an undo button (移除, remove, unlike, undo). */
  predicate Blocked(title: string) {
    var t := ToLower(title);
    Contains(t, "移除") || Contains(t, "remove") || Contains(t, "unlike") || Contains(t, "undo")
  }

  /** A title holding an undo word, in any ASCII letter case, is blocked. */
  lemma BlockedByUndoWord(before: string, word: string, after: string)
    requires ToLower(word) in ["移除", "remove", "unlike", "undo"]
    ensures Blocked(before + word + after)
  {
    ToLowerAppend(before, word, after);
    ContainsInfix(ToLower(before), ToLower(word), ToLower(after));
  }

  /** A button `try_like` hands to `safe_click`. */
  predicate Clickable(b: ButtonProbe) {
    b.Button? && b.displayed && !Blocked(b.title)
  }

  /** The buttons clicked, in order, and whether a like was registered. */
  datatype LikeAttempt = LikeAttempt(clicked: seq<ButtonProbe>, liked: bool)

  /** Clicks only clickable buttons, stops at the first click that succeeds,
      and reports success exactly when it stopped that way. */
  predicate WellFormedAttempt(a: LikeAttempt) {
    && (forall k :: 0 <= k < |a.clicked| ==> Clickable(a.clicked[k]))
    && (forall k :: 0 <= k < |a.clicked| - 1 ==> !a.clicked[k].clickSucceeds)
    && (a.liked <==> a.clicked != [] && a.clicked[|a.clicked| - 1].clickSucceeds)
  }

  /** The buttons of one selector, scanned in order. */
  function TryButtons(buttons: seq<ButtonProbe>): (r: LikeAttempt)
    ensures WellFormedAttempt(r)
  {
    if buttons == [] then LikeAttempt([], false)
    else
      match buttons[0]
      case Unreadable => LikeAttempt([], false)
      case Button(displayed, title, succeeds) =>
        if !displayed || Blocked(title) then TryButtons(buttons[1..])
        else if succeeds then LikeAttempt([buttons[0]], true)
        else
          var rest := TryButtons(buttons[1..]);
          LikeAttempt([buttons[0]] + rest.clicked, rest.liked)
  }

  /** `try_like`: each like selector's buttons in turn until a click succeeds. */
  function TryLike(groups: seq<seq<ButtonProbe>>): (r: LikeAttempt)
    ensures WellFormedAttempt(r)
  {
    if groups == [] then LikeAttempt([], false)
    else
      var first := TryButtons(groups[0]);
      if first.liked then first
      else
        var rest := TryLike(groups[1..]);
        LikeAttempt(first.clicked + rest.clicked, rest.liked)
  }

  /** No exception is raised reading the buttons before position `b`. */
  predicate ReadableBefore(buttons: seq<ButtonProbe>, b: nat)
    requires b <= |buttons|
  {
    forall j :: 0 <= j < b ==> buttons[j].Button?
  }

  /** Button `b` of a selector is reached, clickable, and its click works. */
  predicate LikesAt(buttons: seq<ButtonProbe>, b: nat) {
    b < |buttons| && ReadableBefore(buttons, b) && Clickable(buttons[b]) && buttons[b].clickSucceeds
  }

  lemma {:induction false} TryButtonsLikedIff(buttons: seq<ButtonProbe>)
    ensures TryButtons(buttons).liked <==> exists b: nat :: LikesAt(buttons, b)
  {
    if buttons != [] {
      var tail := buttons[1..];
      if buttons[0].Button? {
        assert forall b: nat :: LikesAt(tail, b) ==> LikesAt(buttons, b + 1) by {
          forall b: nat | LikesAt(tail, b) ensures LikesAt(buttons, b + 1) {
            assert buttons[b + 1] == tail[b];
            assert forall j :: 1 <= j < b + 1 ==> buttons[j] == tail[j - 1];
          }
        }
        assert forall b: nat :: b > 0 && LikesAt(buttons, b) ==> LikesAt(tail, b - 1) by {
          forall b: nat | b > 0 && LikesAt(buttons, b) ensures LikesAt(tail, b - 1) {
            assert tail[b - 1] == buttons[b];
            assert forall j :: 0 <= j < b - 1 ==> tail[j] == buttons[j + 1];
          }
        }
        TryButtonsLikedIff(tail);
        if LikesAt(buttons, 0) {
          assert TryButtons(buttons).liked;
        }
      } else {
        assert forall b: nat :: !LikesAt(buttons, b) by {
          forall b: nat ensures !LikesAt(buttons, b) {
            if b > 0 && b < |buttons| { assert !ReadableBefore(buttons, b); }
          }
        }
      }
    }
  }

  /** `try_like` reports a like exactly when some selector has a reachable,
      visible, non-undo button whose click succeeds. */
  lemma {:induction false} TryLikeLikedIff(groups: seq<seq<ButtonProbe>>)
    ensures TryLike(groups).liked <==>
              exists g: nat, b: nat :: g < |groups| && LikesAt(groups[g], b)
  {
    if groups != [] {
      TryButtonsLikedIff(groups[0]);
      TryLikeLikedIff(groups[1..]);
      if exists g: nat, b: nat :: g < |groups| && LikesAt(groups[g], b) {
        var g: nat, b: nat :| g < |groups| && LikesAt(groups[g], b);
        if g > 0 {
          assert LikesAt(groups[1..][g - 1], b);
        }
      }
      if exists g: nat, b: nat :: g < |groups| - 1 && LikesAt(groups[1..][g], b) {
        var g: nat, b: nat :| g < |groups| - 1 && LikesAt(groups[1..][g], b);
        assert LikesAt(groups[g + 1], b);
      }
    }
  }

  // ---------------------------------------------------------------------------
  // Visiting topics

  /** One topic link of the listing as the browser reports it. `opens` is
      whether the new tab opened and `driver.get` on the link returned. */
  datatype Candidate = Candidate(
    pinned: bool,
    text: string,
    href: string,
    viewCells: seq<Option<ViewCell>>,
    opens: bool,
    likeButtons: seq<seq<ButtonProbe>>)

  /** What happened to one examined topic. */
  datatype Visit =
    | SkippedPinned
    | SkippedUntitled
    | SkippedNoLink
    | LoadFailed
    | Visited(views: nat, likeTried: bool, liked: bool)

  /** `topic.text.strip()[:30]` */
  function Title(c: Candidate): (r: string)
    ensures |r| <= 30
    ensures r == [] <==> Strip(c.text) == []
  {
    var t := Strip(c.text);
    if |t| <= 30 then t else t[..30]
  }

  /** The body of the loop in `browse_topics` for one topic. */
  function VisitTopic(c: Candidate, threshold: int): (v: Visit)
    ensures v.Visited? <==> !c.pinned && Strip(c.text) != [] && c.href != [] && c.opens
    ensures c.pinned ==> v == SkippedPinned
    ensures v.Visited? ==> v.views == GetViews(c.viewCells)
    ensures v.Visited? ==> (v.likeTried <==> v.views > threshold)
    ensures v.Visited? && v.liked ==> v.likeTried && v.views > threshold
    ensures v.Visited? && v.likeTried ==> v.liked == TryLike(c.likeButtons).liked
  {
    if c.pinned then SkippedPinned
    else if Title(c) == [] then SkippedUntitled
    else if c.href == [] then SkippedNoLink
    else
      var views := GetViews(c.viewCells);
      if !c.opens then LoadFailed
      else if views > threshold then Visited(views, true, TryLike(c.likeButtons).liked)
      else Visited(views, false, false)
  }

  /** The topics `browse_topics` examines, in listing order. */
  function VisitLog(topics: seq<Candidate>, threshold: int): (log: seq<Visit>)
    ensures |log| == Min(|topics|, MaxTopics)
    ensures forall k :: 0 <= k < |log| ==> log[k] == VisitTopic(topics[k], threshold)
  {
    seq(Min(|topics|, MaxTopics), k requires 0 <= k < Min(|topics|, MaxTopics) => VisitTopic(topics[k], threshold))
  }

  function VisitCount(log: seq<Visit>): nat {
    if log == [] then 0
    else VisitCount(log[..|log| - 1]) + (if log[|log| - 1].Visited? then 1 else 0)
  }

  function LikeCount(log: seq<Visit>): nat {
    if log == [] then 0
    else LikeCount(log[..|log| - 1]) + (if log[|log| - 1].Visited? && log[|log| - 1].liked then 1 else 0)
  }

  /** At most one like per visited topic, and at most one visit per examined
      topic. */
  lemma {:induction false} LikesWithinVisits(log: seq<Visit>)
    ensures LikeCount(log) <= VisitCount(log) <= |log|
  {
    if log != [] {
      LikesWithinVisits(log[..|log| - 1]);
    }
  }

  /** Topics beyond the first twenty are never examined. */
  lemma VisitLogIgnoresTail(topics: seq<Candidate>, extra: seq<Candidate>, threshold: int)
    requires |topics| >= MaxTopics
    ensures VisitLog(topics + extra, threshold) == VisitLog(topics, threshold)
  {
    var a := VisitLog(topics + extra, threshold);
    var b := VisitLog(topics, threshold);
    assert forall k :: 0 <= k < |a| ==> (topics + extra)[k] == topics[k];
  }

  /** Extending the examined prefix by one entry adds that entry's visit and
      like. */
  lemma CountsStep(log: seq<Visit>, i: nat)
    requires i < |log|
    ensures VisitCount(log[..i + 1]) == VisitCount(log[..i]) + (if log[i].Visited? then 1 else 0)
    ensures LikeCount(log[..i + 1]) == LikeCount(log[..i]) + (if log[i].Visited? && log[i].liked then 1 else 0)
  {
    assert log[..i + 1][..i] == log[..i];
  }

  /** No pinned topic is ever counted as visited. */
  lemma PinnedNeverVisited(topics: seq<Candidate>, threshold: int, k: nat)
    requires k < Min(|topics|, MaxTopics) && topics[k].pinned
    ensures !VisitLog(topics, threshold)[k].Visited?
  {
  }

  /** One pass of the loop body of `browse_topics`: whether the topic counts
      as browsed, and whether a like was registered on it. */
  method HandleTopic(topic: Candidate, threshold: int) returns (visited: bool, liked: bool)
    ensures visited <==> VisitTopic(topic, threshold).Visited?
    ensures liked <==> visited && VisitTopic(topic, threshold).liked
    ensures liked ==> visited && GetViews(topic.viewCells) > threshold
  {
    visited, liked := false, false;
    if !topic.pinned && Title(topic) != [] && topic.href != [] {
      var views := GetViews(topic.viewCells);
      if topic.opens {
        visited := true;
        if views > threshold {
          var attempt := TryLike(topic.likeButtons);
          liked := attempt.liked;
        }
      }
    }
  }

  /** `browse_topics` after the listing is loaded: returns `(browse_count,
      like_count)` for the first twenty topics. */
  method BrowseTopics(topics: seq<Candidate>, threshold: int) returns (browseCount: nat, likeCount: nat)
    ensures browseCount == VisitCount(VisitLog(topics, threshold))
    ensures likeCount == LikeCount(VisitLog(topics, threshold))
    ensures likeCount <= browseCount <= Min(|topics|, MaxTopics)
    ensures topics == [] ==> browseCount == 0 && likeCount == 0
  {
    browseCount, likeCount := 0, 0;
    if topics == [] {
      return;
    }
    var maxTopics := Min(|topics|, MaxTopics);
    ghost var log := VisitLog(topics, threshold);
    var i := 0;
    while i < maxTopics
      invariant i <= maxTopics
      invariant browseCount == VisitCount(log[..i])
      invariant likeCount == LikeCount(log[..i])
    {
      CountsStep(log, i);
      var visited, liked := HandleTopic(topics[i], threshold);
      assert visited == log[i].Visited? && liked == (log[i].Visited? && log[i].liked);
      if visited {
        browseCount := browseCount + 1;
        if liked {
          likeCount := likeCount + 1;
        }
      }
      i := i + 1;
    }
    assert log[..i] == log;
    LikesWithinVisits(log);
  }
}
